=== FILE: README.md ===
# Seed catalogue of the farmacie back end, in Dafny

This project models the seed catalogue of the farmacie back end. It covers three parts:

- **The HTTP handlers**: `addSeed`, `updateSeed`, `deleteSeed`, `deleteSeedImg`, `alreadyInSimulator`, `seedStats`, `getSingleSeed` and `getSeeds`.
- **The `seed` table**: its column declarations, validators, defaults and the Seed → SeedImage cascade.
- **The string helpers** those handlers use.

Files:

- `js_values.dfy` (module `JsValues`): the JavaScript values that reach the handlers, `obj[key]`, `parseInt` and truthiness.
- `seed_model.dfy` (module `SeedModel`): the column table of `sequelize.define('seed', …)`, the row validity it implies, `Seed.create`, the static `Seed.update` on the row a uuid names, and the cascade of `onDelete: 'CASCADE'`.
- `utils.dfy` (module `Utils`): `getRelativePath`, `convertToLowercase` (a method with a loop over the keys, proved equal to a map comprehension), `capitalizeWords`, and the empty-input branch of `validateEmail`.
- `seed_controller.dfy` (module `SeedController`):
  - The database is three tables: seeds, seed images, and the crop simulator's variety registry (`variety_eng` → `in_farmacie`).
  - Each handler is a function from the tables before the request to its reply and the tables after it.
  - The class `SeedStore` holds the tables as fields and runs each handler step by step, in the same order as the JavaScript. Each method's postcondition ties its reply and new state to that handler's function.
  - Lemmas then state what each handler promises: its guards, its writes, the invariants it keeps, idempotence, and the cascade.

The tables invariant `TablesValid` says three things:

- every stored row passes its column declarations and is keyed by its own uuid;
- every key is below the allocation counter;
- every image belongs to a stored seed.

Every handler preserves it.

Three behaviours of the handlers that the model keeps as the code has them:

- **`company_fk` is lower-cased** with every other string of the body. `convertToLowercase(req.body)` is called with no exclusion list (seed.controller.js:20, 148).
- **The registry match is exact.** The lookup compares `variety_eng` with the already lower-cased variety name (seed.controller.js:31). The model compares the two names exactly, as a case-sensitive collation does, so a registry entry stored with upper-case letters does not match.
- **updateSeed checks a new minimum against the stored maximum even when a new maximum is also given** (seed.controller.js:154). For example, a seed stored with days 10..20 and updated to min 30, max 40 is rejected (`UpdateSeedDayChecks`).

## Model

| member | source | states |
|---|---|---|
| Utils.GetRelativePath | src/utils/utils.js:6-11 | the relative path never contains a backslash |
| Utils.RelativePathIsSuffix | src/utils/utils.js:7-10 | the result is "" exactly when the normalised path has no "/static"; otherwise it is the suffix of the normalised path that begins with "/static" at its first occurrence |
| Utils.IndexOf | src/utils/utils.js:8 | `indexOf` is -1 exactly when the pattern never occurs; otherwise it is the first position where it occurs |
| Utils.ConvertToLowercase | src/utils/utils.js:15-28 | the new object has exactly the input's keys; string values under non-excluded keys are lower-cased and every other value is copied unchanged |
| Utils.LowercasedIdempotent | src/utils/utils.js:15-28 | lower-casing an object twice gives the same object as lower-casing it once |
| Utils.LowercasedStringsAreLowerCase | src/utils/utils.js:20-21 | every string left under a non-excluded key has no upper-case letter |
| Utils.ToLowerIsLowerCase | src/utils/utils.js:21 | `toLowerCase` leaves no ASCII upper-case letter |
| Utils.Split | src/utils/utils.js:103 | `split(" ")` yields at least one piece, and no piece contains a space |
| Utils.SplitJoin | src/utils/utils.js:103-105 | splitting the join of space-free words gives the words back |
| Utils.JoinSplit | src/utils/utils.js:103-105 | joining the pieces of a split gives the original string back |
| Utils.CapitalizeWords | src/utils/utils.js:101-106 | capitalizeWords changes only letter case, so it keeps the length; its word structure is stated by CapitalizeWordsShape |
| Utils.CapitalizeWordsShape | src/utils/utils.js:101-106 | capitalizeWords keeps the number of space-separated words; each non-empty word starts with a non-lower-case character followed only by lower case; the result differs from the input only in letter case |
| Utils.ValidateEmail | src/utils/utils.js:33-40 | "Email is required" exactly for a missing or empty address; otherwise the pattern decides between "Please enter a valid email" and no message |
| SeedModel.ColumnOf | src/models/seed/seed.model.js:4-146 | the column table: every `allowNull: false` column is a string column without a default, so a create must supply it, and every declared default passes its own column |
| SeedModel.DefaultedExactly | src/models/seed/seed.model.js:137-144 | in_simulator and trial_count are exactly the attributes that carry a default |
| SeedModel.InitialRow | src/models/seed/seed.model.js:137-144 | a created row holds each supplied attribute, and otherwise the column default |
| SeedModel.Create | src/models/seed/seed.model.js:4-146 | `Seed.create` under a given uuid stores the initial row; what that row holds, and when the create is refused, is stated by CreateStores |
| SeedModel.CreateStores | src/models/seed/seed.model.js:4-146 | `Seed.create` succeeds exactly when every attribute, supplied or defaulted, passes its column's nullability, type and validators; the stored row is then valid, carries the given uuid and holds each supplied value or else the default |
| SeedModel.Update | src/models/seed/seed.model.js:4-146 | an update succeeds exactly when every supplied value passes its column; it keeps the uuid, replaces exactly the supplied attributes, and keeps a valid row valid |
| SeedModel.ValidHasRequiredFields | src/models/seed/seed.model.js:10-24 | a valid seed holds a value for each of seed_variety_name, company_fk, crop_category and crop |
| SeedModel.ValidIntegers | src/models/seed/seed.model.js:26-93 | a valid seed's integer columns, when set, hold integers within their declared min and max |
| SeedModel.ValidPercentages | src/models/seed/seed.model.js:46-77 | germination_percentage and maturity_percentage, when set, are integers in 0..100 |
| SeedModel.ValidRegion | src/models/seed/seed.model.js:94-102 | suitable_region, when set, is irrigated, rainfed or drought |
| SeedModel.CreateRejectsMissingRequired | src/models/seed/seed.model.js:10-24 | a create that omits one of the four non-null strings fails |
| SeedModel.CreateDefaults | src/models/seed/seed.model.js:137-144 | a created seed has in_simulator = false and trial_count = 0 unless the caller gave them, and a given in_simulator is kept |
| SeedModel.CascadeDelete | src/models/seed/seed.model.js:162-163 | deleting a seed removes it and exactly the images whose seed_fk is its uuid; all other rows are untouched; no image is left without an owner |
| SeedController.FirstMissing | src/controllers/seed/seed.controller.js:15-17 | there is no answer exactly when every required field is present; otherwise the answer is absent from the body and every field before it in the list is present |
| SeedController.ImageUrls | src/controllers/seed/seed.controller.js:41 | one image url per uploaded file |
| SeedController.NewImages | src/controllers/seed/seed.controller.js:41-42 | `bulkCreate` adds one row per url, under consecutive fresh keys, in upload order, each owned by the given seed |
| SeedController.MarkInFarmacie | src/controllers/seed/seed.controller.js:31-35 | the registry keeps its names; the entry named by the body's variety turns in_farmacie true when the registry knows that name, and every other entry keeps its flag |
| SeedController.UpdateDaysError | src/controllers/seed/seed.controller.js:150-155 | no error exactly when each non-zero numeric day respects the stored bound on the other side and the new min does not exceed the new max; the errors are the two day messages, and the "max" message only for a new max below the stored min |
| SeedController.DaysOutOfOrder | src/controllers/seed/seed.controller.js:22-23 | addSeed's day test; AddSeedGuards states that it alone, after the field and image checks, gives the days error, and AddSeedDaysInOrder that the seed an addSeed stores has both days, with min ≤ max |
| SeedController.IsDuplicate | src/controllers/seed/seed.controller.js:26-28 | addSeed's duplicate test on the six listing columns; AddSeedGuards states that it gives the conflict error, and AddSeedTwiceConflicts that a repeated add meets it |
| SeedController.CreateAttrs | src/controllers/seed/seed.controller.js:31-33 | the attributes passed to `Seed.create`; AddSeedSimulatorFlag states the in_simulator value they give the new seed |
| SeedController.SeedStore.AddSeed | src/controllers/seed/seed.controller.js:13-48 | reply and new tables are those of the addSeed specification; the tables invariant is kept |
| SeedController.SeedStore.CreateSeed | src/controllers/seed/seed.controller.js:31-43 | the writes after the guards: registry flag, then `Seed.create`, then the images; the invariant is kept |
| SeedController.SeedStore.BulkCreateImages | src/controllers/seed/seed.controller.js:41-42 | the image table gains one row per file, owned by the seed, under fresh keys |
| SeedController.SeedStore.GetSingleSeed | src/controllers/seed/seed.controller.js:54-77 | a missing uuid is reported as missing and an unknown one as "Seed not found" on field uuid; otherwise the reply is the seed with exactly its own images' urls |
| SeedController.SeedStore.GetSeeds | src/controllers/seed/seed.controller.js:84-93 | one entry per stored seed, holding exactly the listed summary columns with their stored values |
| SeedController.SeedStore.DeleteSeed | src/controllers/seed/seed.controller.js:99-111 | reply and new tables are those of the deleteSeed specification; the invariant is kept |
| SeedController.SeedStore.DeleteSeedImg | src/controllers/seed/seed.controller.js:116-128 | reply and new tables are those of the deleteSeedImg specification; the invariant is kept |
| SeedController.SeedStore.UpdateSeed | src/controllers/seed/seed.controller.js:134-166 | reply and new tables are those of the updateSeed specification; the invariant is kept |
| SeedController.SeedStore.SaveUpdate | src/controllers/seed/seed.controller.js:150-161 | the harvesting-day checks, then the row update, as the specification of those steps |
| SeedController.SeedStore.SeedStats | src/controllers/seed/seed.controller.js:169-177 | the total is the number of seeds, the in-simulator count is the number of seeds whose in_simulator is true, and it never exceeds the total (the subset bound is proved by SubsetCardinality) |
| SeedController.SeedStore.AlreadyInSimulator | src/controllers/seed/seed.controller.js:181-198 | reply and new tables are those of the alreadyInSimulator specification; the invariant is kept |
| SeedController.AddSeedGuards | src/controllers/seed/seed.controller.js:15-28 | each guard gives its own error exactly when the guards before it passed and it fails: missing field (naming an absent required field), no image, min > max days, duplicate listing; a stopped request writes nothing; a failed create leaves only the registry flag |
| SeedController.AddSeedSucceeded | src/controllers/seed/seed.controller.js:15-43 | a successful add passed every guard, `Seed.create` accepted the row, and the outcome is storing that row after the registry write |
| SeedController.StoreCreatedSucceeds | src/controllers/seed/seed.controller.js:38-43 | storing the outcome of `Seed.create` succeeds exactly when the create produced a row |
| SeedController.AddSeedSucceedsExactly | src/controllers/seed/seed.controller.js:15-43 | addSeed succeeds exactly when all twelve required fields are present, an image is attached, the days are not out of order, no stored seed has the same listing, and `Seed.create` accepts the row |
| SeedController.AddSeedKeepsValid | src/controllers/seed/seed.controller.js:13-48 | addSeed keeps the tables invariant; a success stores exactly one new seed, the created row, under a fresh uuid |
| SeedController.AddSeedSimulatorFlag | src/controllers/seed/seed.controller.js:30-38 | on success the new seed has in_simulator = true and its registry entry in_farmacie = true when the registry knows the variety; otherwise the registry is untouched and the flag is the body's own, false by default |
| SeedController.AddSeedImages | src/controllers/seed/seed.controller.js:38-42 | on success the old images stay, and exactly one image per file is added, owned by the new seed, holding the file's relative path |
| SeedController.AddSeedStoredTables | src/controllers/seed/seed.controller.js:31-42 | a successful addSeed leaves the created row stored under the next key, the registry flagged, and then one image per file |
| SeedController.AttachImagesAdds | src/controllers/seed/seed.controller.js:41-42 | `bulkCreate` keeps every image, adds one per file under fresh keys with the file's relative path, and touches neither seeds nor registry |
| SeedController.CreatedDaysInOrder | src/controllers/seed/seed.controller.js:22-23 | a row created from a body whose days passed the check holds both days, with min ≤ max |
| SeedController.AddSeedDaysInOrder | src/controllers/seed/seed.controller.js:22-38 | a seed stored by addSeed has both harvesting days, with min ≤ max |
| SeedController.CreatedSameListing | src/controllers/seed/seed.controller.js:26-27 | a created row agrees with the body on every column of the duplicate test |
| SeedController.AddSeedTwiceConflicts | src/controllers/seed/seed.controller.js:26-28 | repeating a successful addSeed gives "Seeds already added in global list" and writes nothing |
| SeedController.UpdateSeedRejectsUnknown | src/controllers/seed/seed.controller.js:136-141 | a missing uuid or an unknown seed is reported and nothing changes |
| SeedController.UpdateRowEffects | src/controllers/seed/seed.controller.js:153-161 | the checked update touches only its own row, and only on success, where exactly the supplied columns change |
| SeedController.UpdateSeedEffects | src/controllers/seed/seed.controller.js:140-161 | for a known seed, the new images are added whatever the outcome; the row changes only on success, and then only in the supplied columns; other seeds and the registry are untouched |
| SeedController.UpdateSeedDayChecks | src/controllers/seed/seed.controller.js:150-155 | for non-zero numeric values, new min > new max, new min > stored max and new max < stored min are each rejected; a success respects the stored bounds |
| SeedController.UpdateSeedSucceedsExactly | src/controllers/seed/seed.controller.js:148-161 | updateSeed on a known seed succeeds exactly when none of the three day checks fires (so 0 and NaN never trigger one) and the row update accepts the supplied columns |
| SeedController.UpdateSeedPartialMinSucceeds | src/controllers/seed/seed.controller.js:150-161 | an update that sets only the minimum to a value not above the stored maximum succeeds, stores that minimum and keeps the maximum |
| SeedController.UpdateRowKeepsDaysInOrder | src/controllers/seed/seed.controller.js:153-159 | when neither day is set to 0, a successful checked update keeps min ≤ max |
| SeedController.UpdateSeedKeepsDaysInOrder | src/controllers/seed/seed.controller.js:148-161 | when neither day is set to 0, a successful updateSeed keeps min ≤ max |
| SeedController.UpdateSeedZeroMaxBreaksOrder | src/controllers/seed/seed.controller.js:152-155 | setting max_harvesting_days to 0 skips every check, succeeds, and leaves min > max |
| SeedController.UpdateSeedKeepsValid | src/controllers/seed/seed.controller.js:134-166 | updateSeed keeps the tables invariant |
| SeedController.DeleteSeedCascades | src/controllers/seed/seed.controller.js:99-111 | deleteSeed succeeds and removes the seed and exactly the images whose seed_fk is its uuid; other rows and the registry are untouched; the invariant is kept |
| SeedController.DeleteSeedImgRemovesOne | src/controllers/seed/seed.controller.js:116-128 | deleteSeedImg succeeds and removes that one image; the seeds and the other images are untouched; the invariant is kept |
| SeedController.AlreadyInSimulatorEffect | src/controllers/seed/seed.controller.js:188-194 | "already set" exactly when the flag was truthy, with no write; otherwise the flag becomes true and nothing else changes |
| SeedController.AlreadyInSimulatorIdempotent | src/controllers/seed/seed.controller.js:188-194 | a second call changes nothing, and for a known seed it answers "already set" |
| SeedController.AlreadyInSimulatorKeepsValid | src/controllers/seed/seed.controller.js:192-193 | setting the flag keeps the tables invariant |

## Left out

- **HTTP and ORM layers.** Express `req`/`res` and Sequelize query building are not modelled. Request fields are a map from attribute to value, and replies are a `Reply` datatype. `responses.js` and `requiredFields.js` are not part of this model: "required field present" is a key-membership test.
- **Body keys outside the 21 attributes.** Request bodies cover only the 21 non-key attributes of the seed table. Three kinds of body key are not represented:
  - a body `uuid`: `Seed.create` (seed.controller.js:38) would store it instead of generating a key, and the static `Seed.update` (seed.controller.js:159) would write it into the row's primary key. The model's fresh key on create (`AddSeedKeepsValid`) and unchanged key set on update (`UpdateRowEffects`, `UpdateSeedEffects`) hold only for bodies without one;
  - body `createdAt`/`updatedAt` timestamps;
  - keys that name no column at all.
- **Strings as numbers.** A number reaches the model already parsed. `parseInt` of a numeric string, floating-point values and JavaScript `null` are not modelled, and a string in an integer column is rejected.
- SeedModel.ColumnOk: the BOOLEAN column in_simulator accepts only a boolean. The ORM turns "true"/"false" and 1/0 into booleans there, and the database parses further textual forms; the model refuses them all.
- SeedModel.ColumnOk: INTEGER columns take any integer. The database's INTEGER range is not modelled, so a value outside it, which the database refuses and the handler reports as an error, is accepted by the model.
- SeedModel.ColumnOk: a number or boolean stored in a STRING or TEXT column is kept as sent. The database would keep its text form, and the model does not convert it.
- **Typed lookups.** When the duplicate test or the registry lookup gets a number or boolean for a string column, the model compares values as they are. How the database types that comparison is not modelled. Neither is its collation: names are compared exactly, as under a case-sensitive collation; a case-insensitive one would also match names that differ only in case.
- **Persistence errors.** A create or update that fails a column validator answers `PersistenceRejected`. It carries no field name and no message, because the error translation of `catchWithSequelizeFrontError` is not modelled. Logging is left out as well.
- **alreadyInSimulator's missing-uuid return value.** At seed.controller.js:185 the handler returns `queryField.error` instead of the already-sent response. The model answers the missing-field reply.
- **Database-generated values.** UUIDs are a counter shared by seeds and images: every key below it may be taken, and every key from it on is fresh. The `createdAt`/`updatedAt` timestamps are left out.
- **The company relation.** The `company_fk` relation with `SET NULL` (seed.model.js:157-159) is left out, because companies are not part of this model.
- **The registry.** It maps each `variety_eng` to its `in_farmacie` flag, so there is at most one entry per name. An update of several rows with the same name is therefore one map write.
- **Uploads.** Multipart upload and disk storage are left out: each uploaded file is its path string.
- **Concurrency.** The window between the duplicate check and the create is not modelled, and neither are the non-transactional registry write and `bulkCreate`. Every handler runs atomically.
- **Case mapping.** `toLowerCase`/`toUpperCase` are modelled on ASCII letters only.
- **Other helpers.** `getIPAddress` (OS network interfaces) and `createDateWithTodayPlusAddDays`/`check31DaysExpiry` (wall-clock dates) are not modelled.
- **Utils.ValidateEmail:** the email regular expression at utils.js:32 is a parameter, not a definition.
- **SeedController.SeedStore.GetSingleSeed:** the included image rows are reduced to their uuid and url, and the exclusion of timestamps has no counterpart.
- **Update by uuid.** `Seed.update(requiredData, {where: {uuid}})` is modelled as an update of the single row with that uuid, which is the only row it can match.

=== FILE: js_values.dfy ===
/**
 * The JavaScript values that travel through the seed handlers: request-body
 * fields, stored column values, and the two bits of JavaScript semantics the
 * handlers lean on (`parseInt` and truthiness).
 */
module JsValues {

  datatype Option<T> = None | Some(value: T)

  /** Primary keys.  The database generates UUIDs; the model allocates fresh naturals. */
  type Uuid = nat

  /**
   * A field value of a request body or a stored row.  Numbers are integers that
   * arrive already parsed; JavaScript's string-to-number coercion is not modelled.
   */
  datatype JsValue = JStr(s: string) | JInt(n: int) | JBool(b: bool)

  /** `obj[key]`, with `undefined` as `None`. */
  function Lookup<K>(obj: map<K, JsValue>, key: K): Option<JsValue>
  {
    if key in obj then Some(obj[key]) else None
  }

  /** JavaScript truthiness of a present value: "", 0 and false are falsy. */
  predicate Truthy(v: JsValue)
  {
    match v
    case JStr(s) => s != ""
    case JInt(n) => n != 0
    case JBool(b) => b
  }

  /**
   * `parseInt(v)`, with `None` standing for NaN.  A number parses to itself;
   * `undefined`, booleans and (in this model) strings give NaN.
   */
  function ParseInt(v: Option<JsValue>): Option<int>
  {
    match v
    case Some(JInt(n)) => Some(n)
    case _ => None
  }

  /** Truthiness of a `parseInt` result: NaN and 0 are falsy. */
  predicate TruthyNumber(x: Option<int>)
  {
    x.Some? && x.value != 0
  }
}

=== FILE: seed_controller.dfy ===
/**
 * The seed handlers of src/controllers/seed/seed.controller.js over an in-memory
 * store of three tables: seeds, seed images and the crop simulator's variety
 * registry.  Each handler is specified by a function from the tables before the
 * request to its reply and the tables after it; `SeedStore` performs the same
 * steps in place, and the lemmas state what the handlers promise.
 */
module SeedController {
  import opened JsValues
  import opened Utils
  import opened SeedModel

  // ---------------------------------------------------------------------------
  // Replies
  // ---------------------------------------------------------------------------

  datatype Error =
    | MissingField(field: string)                   // a required body or query field is absent
    | FrontError(message: string, field: string)    // frontError
    | ValidationError(message: string)              // validationError
    | ConflictError(message: string)                // conflictError
    | NotFound(message: string, about: Option<string>)
    | PersistenceRejected                           // a column validator of the seed table failed

  datatype Reply<T> = Success(message: string, data: T) | Failure(error: Error)

  const ImageRequiredMsg: string := "Atleast one image is required."
  const AddDaysMsg: string := "Min harvesting days must be less than equal to max harvesting days"
  const DuplicateMsg: string := "Seeds already added in global list"
  const SeedAddedMsg: string := "Seed added successfully"
  const SeedNotFoundMsg: string := "Seed not found"
  const SeedFetchedMsg: string := "Seed fetched successfully"
  const SeedsFetchedMsg: string := "Seeds fetched successfully"
  const SeedDeletedMsg: string := "Seed delete successfully"
  const ImageDeletedMsg: string := "Seed images delete successfully"
  const UpdateMinMsg: string := "Min harvesting days must be less than max harvesting days"
  const UpdateMaxMsg: string := "Max harvesting days must be greater than min harvesting days"
  const SeedUpdatedMsg: string := "Seed updated successfully"
  const SimulatorSeedNotFoundMsg: string := "seed not found."
  const AlreadySetMsg: string := "Seed in simulator status already set."
  const StatusUpdatedMsg: string := "seed in simulator status updated successfully."

  // ---------------------------------------------------------------------------
  // The tables
  // ---------------------------------------------------------------------------

  /**
   * The database as the handlers see it.  `registry` maps a crop variety's
   * `variety_eng` to its `in_farmacie` flag; `nextId` stands in for UUID
   * generation: every key below it may be taken, every key from it on is fresh.
   */
  datatype Tables = Tables(
    seeds: map<Uuid, Seed>,
    images: map<Uuid, SeedImage>,
    registry: map<string, bool>,
    nextId: Uuid)

  /** Rows are valid and keyed by their own uuid, keys are allocated, images have an owner. */
  predicate TablesValid(t: Tables)
  {
    && (forall k :: k in t.seeds ==> k < t.nextId && t.seeds[k].uuid == k && SeedModel.Valid(t.seeds[k]))
    && (forall k :: k in t.images ==> k < t.nextId)
    && ImagesOwned(t.seeds, t.images)
  }

  // ---------------------------------------------------------------------------
  // Guards shared by the handlers
  // ---------------------------------------------------------------------------

  /** The body fields addSeed requires, in the order it checks them. */
  const AddSeedRequired: seq<Attr> := [
    SeedVarietyName, CompanyFk, CropCategory, Crop, SeedWeight, PackageWeight, PackageType,
    GerminationPercentage, MaturityPercentage, MinHarvestingDays, MaxHarvestingDays, SuitableRegion]

  /** The first required field absent from `body`, if any. */
  function FirstMissing(required: seq<Attr>, body: map<Attr, JsValue>): (r: Option<Attr>)
    ensures r.None? <==> forall i :: 0 <= i < |required| ==> required[i] in body
    ensures r.Some? ==>
              && r.value !in body
              && exists i :: 0 <= i < |required| && required[i] == r.value &&
                             forall j :: 0 <= j < i ==> required[j] in body
  {
    if required == [] then None
    else if required[0] !in body then Some(required[0])
    else
      var r := FirstMissing(required[1..], body);
      if r.Some? then
        var i :| 0 <= i < |required[1..]| && required[1..][i] == r.value &&
                 forall j :: 0 <= j < i ==> required[1..][j] in body;
        assert required[i + 1] == r.value;
        r
      else r
  }

  /** The columns whose combination the duplicate test compares. */
  const ListingKeys: seq<Attr> := [SeedVarietyName, CompanyFk, CropCategory, Crop, PackageWeight, PackageType]

  /** A stored row agrees with `data` on every listing column. */
  predicate SameListing(values: map<Attr, JsValue>, data: map<Attr, JsValue>)
  {
    forall i :: 0 <= i < |ListingKeys| ==> Lookup(values, ListingKeys[i]) == Lookup(data, ListingKeys[i])
  }

  predicate IsDuplicate(seeds: map<Uuid, Seed>, data: map<Attr, JsValue>)
  {
    exists k :: k in seeds && SameListing(seeds[k].values, data)
  }

  /** `parseInt(min) > parseInt(max)`; a comparison with NaN is false. */
  predicate DaysOutOfOrder(data: map<Attr, JsValue>)
  {
    var lo := ParseInt(Lookup(data, MinHarvestingDays));
    var hi := ParseInt(Lookup(data, MaxHarvestingDays));
    lo.Some? && hi.Some? && lo.value > hi.value
  }

  /** The variety name of `data` is a string the registry knows. */
  predicate InRegistry(registry: map<string, bool>, data: map<Attr, JsValue>)
  {
    SeedVarietyName in data && data[SeedVarietyName].JStr? &&
    data[SeedVarietyName].s in registry
  }

  /** `Cropvariety.update({in_farmacie: true}, {where: {variety_eng}})` when the name matches. */
  function MarkInFarmacie(registry: map<string, bool>, data: map<Attr, JsValue>): (r: map<string, bool>)
    ensures r.Keys == registry.Keys
    ensures forall name :: name in registry ==>
              r[name] == if InRegistry(registry, data) && name == data[SeedVarietyName].s then true else registry[name]
  {
    if InRegistry(registry, data) then registry[data[SeedVarietyName].s := true] else registry
  }

  /** The `image_url` of each uploaded file, in upload order. */
  function ImageUrls(files: seq<string>): (urls: seq<string>)
    ensures |urls| == |files|
  {
    seq(|files|, i requires 0 <= i < |files| => GetRelativePath(files[i]))
  }

  /** One image row per url, keyed from `firstId` on, all owned by `seedFk`. */
  function NewImages(firstId: Uuid, urls: seq<string>, seedFk: Uuid): (r: map<Uuid, SeedImage>)
    ensures forall k :: k in r <==> firstId <= k < firstId + |urls|
    ensures forall i :: 0 <= i < |urls| ==> r[firstId + i] == SeedImage(urls[i], seedFk)
    decreases |urls|
  {
    if urls == [] then map[]
    else
      var rest := NewImages(firstId + 1, urls[1..], seedFk);
      assert forall i :: 1 <= i < |urls| ==> urls[1..][i - 1] == urls[i];
      rest[firstId := SeedImage(urls[0], seedFk)]
  }

  /** A stored harvesting-day value as a JavaScript `<` sees it: NULL compares as 0. */
  function StoredDays(values: map<Attr, JsValue>, a: Attr): int
  {
    match Lookup(values, a)
    case Some(JInt(n)) => n
    case _ => 0
  }

  /**
   * The three harvesting-day checks of updateSeed.  Each applies only to a
   * truthy parsed value, so 0 and NaN skip it.
   */
  function UpdateDaysError(newMin: Option<int>, newMax: Option<int>, storedMin: int, storedMax: int)
    : (r: Option<string>)
    ensures r.None? <==>
              && (TruthyNumber(newMin) ==> newMin.value <= storedMax)
              && (TruthyNumber(newMax) ==> storedMin <= newMax.value)
              && (TruthyNumber(newMin) && TruthyNumber(newMax) ==> newMin.value <= newMax.value)
    ensures r.Some? ==> r.value == UpdateMinMsg || r.value == UpdateMaxMsg
    ensures r == Some(UpdateMaxMsg) ==> TruthyNumber(newMax) && storedMin > newMax.value
  {
    if TruthyNumber(newMin) && TruthyNumber(newMax) && newMin.value > newMax.value then Some(UpdateMinMsg)
    else if TruthyNumber(newMin) && storedMax < newMin.value then Some(UpdateMinMsg)
    else if TruthyNumber(newMax) && storedMin > newMax.value then Some(UpdateMaxMsg)
    else None
  }

  // ---------------------------------------------------------------------------
  // The handlers, as functions of the tables
  // ---------------------------------------------------------------------------

  /**
   * `after` keeps every image of `before` and adds exactly one image per url,
   * under the keys from `first` on that `before` did not hold, owned by `owner`.
   */
  predicate ImagesAdded(before: map<Uuid, SeedImage>, after: map<Uuid, SeedImage>, first: Uuid,
                        urls: seq<string>, owner: Uuid)
  {
    && (forall k :: k in before ==> k in after && after[k] == before[k])
    && (forall k :: k in after && k !in before ==> first <= k < first + |urls|)
    && (forall i :: 0 <= i < |urls| ==>
          && first + i !in before
          && first + i in after
          && after[first + i] == SeedImage(urls[i], owner))
  }

  /** `SeedImage.bulkCreate`: one row per uploaded file, owned by `owner`, under fresh keys. */
  function AttachImages(t: Tables, files: seq<string>, owner: Uuid): Tables
  {
    t.(images := t.images + NewImages(t.nextId, ImageUrls(files), owner), nextId := t.nextId + |files|)
  }

  /** The attributes addSeed passes to `Seed.create`. */
  function CreateAttrs(registry: map<string, bool>, data: map<Attr, JsValue>): map<Attr, JsValue>
  {
    if InRegistry(registry, data) then data[InSimulator := JBool(true)] else data
  }

  /** The error of the first addSeed guard that stops the request, if one does. */
  function AddSeedCheck(seeds: map<Uuid, Seed>, body: map<Attr, JsValue>, files: seq<string>): Option<Error>
  {
    var missing := FirstMissing(AddSeedRequired, body);
    if missing.Some? then Some(MissingField(Name(missing.value)))
    else if files == [] then Some(FrontError(ImageRequiredMsg, "images"))
    else
      var data := Lowercased(body, []);
      if DaysOutOfOrder(data) then Some(ValidationError(AddDaysMsg))
      else if IsDuplicate(seeds, data) then Some(ConflictError(DuplicateMsg))
      else None
  }

  /** addSeed */
  function AddSeedSpec(t: Tables, body: map<Attr, JsValue>, files: seq<string>): (Reply<()>, Tables)
  {
    var rejected := AddSeedCheck(t.seeds, body, files);
    if rejected.Some? then (Failure(rejected.value), t)
    else AddSeedWrite(t, Lowercased(body, []), files)
  }

  /**
   * The writes of addSeed once its guards pass: the registry flag first, then
   * the seed row, then its images.
   */
  function AddSeedWrite(t: Tables, data: map<Attr, JsValue>, files: seq<string>): (Reply<()>, Tables)
  {
    StoreCreated(t.(registry := MarkInFarmacie(t.registry, data)), Create(t.nextId, CreateAttrs(t.registry, data)), files)
  }

  /** The seed row `Seed.create` produced, if any, stored under the next key, followed by its images. */
  function StoreCreated(t: Tables, created: Option<Seed>, files: seq<string>): (Reply<()>, Tables)
  {
    match created
    case None => (Failure(PersistenceRejected), t)
    case Some(seed) =>
      (Success(SeedAddedMsg, ()),
       AttachImages(t.(seeds := t.seeds[t.nextId := seed], nextId := t.nextId + 1), files, t.nextId))
  }

  /** updateSeed */
  function UpdateSeedSpec(t: Tables, uuid: Option<Uuid>, body: map<Attr, JsValue>, files: seq<string>)
    : (Reply<()>, Tables)
  {
    if uuid.None? then (Failure(MissingField("uuid")), t)
    else if uuid.value !in t.seeds then (Failure(NotFound(SeedNotFoundMsg, None)), t)
    else
      var t1 := if files != [] then AttachImages(t, files, uuid.value) else t;
      UpdateRow(t1, uuid.value, Lowercased(body, []))
  }

  /** The harvesting-day checks of updateSeed, then `Seed.update(data, {where: {uuid: id}})`. */
  function UpdateRow(t: Tables, id: Uuid, data: map<Attr, JsValue>): (Reply<()>, Tables)
    requires id in t.seeds
  {
    var stored := t.seeds[id];
    var check := UpdateDaysError(ParseInt(Lookup(data, MinHarvestingDays)),
                                 ParseInt(Lookup(data, MaxHarvestingDays)),
                                 StoredDays(stored.values, MinHarvestingDays),
                                 StoredDays(stored.values, MaxHarvestingDays));
    if check.Some? then (Failure(ValidationError(check.value)), t)
    else
      match Update(stored, data)
      case None => (Failure(PersistenceRejected), t)
      case Some(seed) => (Success(SeedUpdatedMsg, ()), t.(seeds := t.seeds[id := seed]))
  }

  /** deleteSeed: the database cascades the delete to the seed's images. */
  function DeleteSeedSpec(t: Tables, uuid: Option<Uuid>): (Reply<()>, Tables)
  {
    if uuid.None? then (Failure(MissingField("uuid")), t)
    else
      var (seeds, images) := CascadeDelete(t.seeds, t.images, uuid.value);
      (Success(SeedDeletedMsg, ()), t.(seeds := seeds, images := images))
  }

  /** deleteSeedImg */
  function DeleteSeedImgSpec(t: Tables, imgUid: Option<Uuid>): (Reply<()>, Tables)
  {
    if imgUid.None? then (Failure(MissingField("imgUid")), t)
    else (Success(ImageDeletedMsg, ()), t.(images := t.images - {imgUid.value}))
  }

  /** The seed's in_simulator value is truthy. */
  predicate IsInSimulator(seed: Seed)
  {
    var v := Lookup(seed.values, InSimulator);
    v.Some? && Truthy(v.value)
  }

  /** alreadyInSimulator */
  function AlreadyInSimulatorSpec(t: Tables, uuid: Option<Uuid>): (Reply<()>, Tables)
  {
    if uuid.None? then (Failure(MissingField("uuid")), t)
    else if uuid.value !in t.seeds then (Failure(NotFound(SimulatorSeedNotFoundMsg, None)), t)
    else
      var seed := t.seeds[uuid.value];
      if IsInSimulator(seed) then (Success(AlreadySetMsg, ()), t)
      else
        var marked := seed.(values := seed.values[InSimulator := JBool(true)]);
        (Success(StatusUpdatedMsg, ()), t.(seeds := t.seeds[uuid.value := marked]))
  }

  // ---------------------------------------------------------------------------
  // Read-only views
  // ---------------------------------------------------------------------------

  /** A seed with the url of each of its images, keyed by image uuid. */
  datatype SeedDetail = SeedDetail(seed: Seed, images: map<Uuid, string>)

  datatype Stats = Stats(seedCount: nat, seedInSimulatorCount: nat)

  /** The attributes getSeeds lists besides the uuid. */
  const SummaryColumns: set<Attr> := {SeedVarietyName, CompanyFk, CropCategory, Crop, InSimulator, TrialCount}

  /** The seeds a `count({where: {in_simulator: true}})` counts. */
  function InSimulatorIds(seeds: map<Uuid, Seed>): set<Uuid>
  {
    set k | k in seeds && Lookup(seeds[k].values, InSimulator) == Some(JBool(true))
  }

  lemma {:induction false} SubsetCardinality<T>(a: set<T>, b: set<T>)
    requires a <= b
    ensures |a| <= |b|
    decreases |b|
  {
    if a != {} {
      var x :| x in a;
      SubsetCardinality(a - {x}, b - {x});
    }
  }

  // ---------------------------------------------------------------------------
  // The store
  // ---------------------------------------------------------------------------

  class SeedStore {
    var seeds: map<Uuid, Seed>
    var images: map<Uuid, SeedImage>
    var registry: map<string, bool>
    var nextId: Uuid

    function State(): Tables
      reads this
    {
      Tables(seeds, images, registry, nextId)
    }

    ghost predicate Valid()
      reads this
    {
      TablesValid(State())
    }

    /** An empty catalogue beside an existing crop-variety registry. */
    constructor (varieties: map<string, bool>)
      ensures Valid()
      ensures State() == Tables(map[], map[], varieties, 0)
    {
      seeds := map[];
      images := map[];
      registry := varieties;
      nextId := 0;
    }

    method AddSeed(body: map<Attr, JsValue>, files: seq<string>) returns (r: Reply<()>)
      requires Valid()
      modifies this
      ensures Valid()
      ensures (r, State()) == AddSeedSpec(old(State()), body, files)
    {
      var missing := FirstMissing(AddSeedRequired, body);
      if missing.Some? {
        return Failure(MissingField(Name(missing.value)));
      }
      if |files| == 0 {
        return Failure(FrontError(ImageRequiredMsg, "images"));
      }
      var requiredData := ConvertToLowercase(body, []);
      if DaysOutOfOrder(requiredData) {
        return Failure(ValidationError(AddDaysMsg));
      }
      if IsDuplicate(seeds, requiredData) {
        return Failure(ConflictError(DuplicateMsg));
      }
      r := CreateSeed(requiredData, files);
    }

    /**
     * The writes of addSeed: flag the variety in the registry, `Seed.create`,
     * then one image row per file.
     */
    method CreateSeed(requiredData: map<Attr, JsValue>, files: seq<string>) returns (r: Reply<()>)
      requires Valid()
      modifies this
      ensures Valid()
      ensures (r, State()) == AddSeedWrite(old(State()), requiredData, files)
    {
      ghost var before := State();
      var attrs := requiredData;
      if InRegistry(registry, requiredData) {
        attrs := attrs[InSimulator := JBool(true)];
        registry := registry[requiredData[SeedVarietyName].s := true];
      }
      ghost var mid := State();
      assert attrs == CreateAttrs(before.registry, requiredData);
      assert mid == before.(registry := MarkInFarmacie(before.registry, requiredData));
      var created := Create(nextId, attrs);
      assert AddSeedWrite(before, requiredData, files) == StoreCreated(mid, created, files);
      StoreCreatedKeepsValid(mid, created, files);
      if created.None? {
        return Failure(PersistenceRejected);
      }
      var id := nextId;
      seeds := seeds[id := created.value];
      nextId := id + 1;
      ghost var stored := State();
      assert stored == mid.(seeds := mid.seeds[mid.nextId := created.value], nextId := mid.nextId + 1);
      BulkCreateImages(files, id);
      StoredSeedTables(mid, created.value, files);
      r := Success(SeedAddedMsg, ());
      assert created == Some(created.value) && id == mid.nextId;
    }

    /** `SeedImage.bulkCreate`: one image row per file, owned by `owner`, under fresh keys. */
    method BulkCreateImages(files: seq<string>, owner: Uuid)
      modifies this
      ensures State() == AttachImages(old(State()), files, owner)
    {
      images := images + NewImages(nextId, ImageUrls(files), owner);
      nextId := nextId + |files|;
    }

    method GetSingleSeed(uuid: Option<Uuid>) returns (r: Reply<SeedDetail>)
      ensures uuid.None? ==> r == Failure(MissingField("uuid"))
      ensures uuid.Some? && uuid.value !in seeds ==> r == Failure(NotFound(SeedNotFoundMsg, Some("uuid")))
      ensures uuid.Some? && uuid.value in seeds ==>
                && r.Success? && r.message == SeedFetchedMsg
                && r.data.seed == seeds[uuid.value]
                && (forall k :: k in r.data.images <==> k in images && images[k].seedFk == uuid.value)
                && (forall k :: k in r.data.images ==> r.data.images[k] == images[k].imageUrl)
    {
      if uuid.None? {
        return Failure(MissingField("uuid"));
      }
      if uuid.value !in seeds {
        return Failure(NotFound(SeedNotFoundMsg, Some("uuid")));
      }
      var own := map k | k in images && images[k].seedFk == uuid.value :: images[k].imageUrl;
      r := Success(SeedFetchedMsg, SeedDetail(seeds[uuid.value], own));
    }

    method GetSeeds() returns (r: Reply<map<Uuid, map<Attr, JsValue>>>)
      ensures r.Success? && r.message == SeedsFetchedMsg
      ensures r.data.Keys == seeds.Keys
      ensures forall k :: k in seeds ==> r.data[k].Keys == seeds[k].values.Keys * SummaryColumns
      ensures forall k, c :: k in seeds && c in r.data[k] ==> r.data[k][c] == seeds[k].values[c]
    {
      var products := map k | k in seeds ::
        map c | c in seeds[k].values && c in SummaryColumns :: seeds[k].values[c];
      r := Success(SeedsFetchedMsg, products);
    }

    method DeleteSeed(uuid: Option<Uuid>) returns (r: Reply<()>)
      requires Valid()
      modifies this
      ensures Valid()
      ensures (r, State()) == DeleteSeedSpec(old(State()), uuid)
    {
      if uuid.None? {
        return Failure(MissingField("uuid"));
      }
      seeds, images := CascadeDelete(seeds, images, uuid.value).0, CascadeDelete(seeds, images, uuid.value).1;
      r := Success(SeedDeletedMsg, ());
    }

    method DeleteSeedImg(imgUid: Option<Uuid>) returns (r: Reply<()>)
      requires Valid()
      modifies this
      ensures Valid()
      ensures (r, State()) == DeleteSeedImgSpec(old(State()), imgUid)
    {
      if imgUid.None? {
        return Failure(MissingField("imgUid"));
      }
      images := images - {imgUid.value};
      r := Success(ImageDeletedMsg, ());
    }

    method UpdateSeed(uuid: Option<Uuid>, body: map<Attr, JsValue>, files: seq<string>)
      returns (r: Reply<()>)
      requires Valid()
      modifies this
      ensures Valid()
      ensures (r, State()) == UpdateSeedSpec(old(State()), uuid, body, files)
    {
      ghost var before := State();
      if uuid.None? {
        return Failure(MissingField("uuid"));
      }
      if uuid.value !in seeds {
        return Failure(NotFound(SeedNotFoundMsg, None));
      }
      var id := uuid.value;
      if |files| > 0 {
        BulkCreateImages(files, id);
      }
      var requiredData := ConvertToLowercase(body, []);
      r := SaveUpdate(id, requiredData);
      UpdateSeedKeepsValid(before, uuid, body, files);
    }

    /** The harvesting-day checks of updateSeed, then `Seed.update(requiredData, {where: {uuid}})`. */
    method SaveUpdate(id: Uuid, requiredData: map<Attr, JsValue>) returns (r: Reply<()>)
      requires id in seeds
      modifies this
      ensures (r, State()) == UpdateRow(old(State()), id, requiredData)
    {
      var seed := seeds[id];
      var minDays := ParseInt(Lookup(requiredData, MinHarvestingDays));
      var maxDays := ParseInt(Lookup(requiredData, MaxHarvestingDays));
      var check := UpdateDaysError(minDays, maxDays, StoredDays(seed.values, MinHarvestingDays),
                                   StoredDays(seed.values, MaxHarvestingDays));
      if check.Some? {
        return Failure(ValidationError(check.value));
      }
      var updated := Update(seed, requiredData);
      if updated.None? {
        return Failure(PersistenceRejected);
      }
      seeds := seeds[id := updated.value];
      r := Success(SeedUpdatedMsg, ());
    }

    method SeedStats() returns (r: Reply<Stats>)
      ensures r.Success? && r.message == SeedsFetchedMsg
      ensures r.data.seedCount == |seeds|
      ensures r.data.seedInSimulatorCount == |InSimulatorIds(seeds)|
      ensures r.data.seedInSimulatorCount <= r.data.seedCount
    {
      var seedCount := |seeds|;
      var inSimulator := InSimulatorIds(seeds);
      SubsetCardinality(inSimulator, seeds.Keys);
      r := Success(SeedsFetchedMsg, Stats(seedCount, |inSimulator|));
    }

    method AlreadyInSimulator(uuid: Option<Uuid>) returns (r: Reply<()>)
      requires Valid()
      modifies this
      ensures Valid()
      ensures (r, State()) == AlreadyInSimulatorSpec(old(State()), uuid)
    {
      ghost var before := State();
      if uuid.None? {
        return Failure(MissingField("uuid"));
      }
      if uuid.value !in seeds {
        return Failure(NotFound(SimulatorSeedNotFoundMsg, None));
      }
      var seed := seeds[uuid.value];
      if IsInSimulator(seed) {
        return Success(AlreadySetMsg, ());
      }
      seed := seed.(values := seed.values[InSimulator := JBool(true)]);
      seeds := seeds[uuid.value := seed];
      r := Success(StatusUpdatedMsg, ());
      AlreadyInSimulatorKeepsValid(before, uuid);
    }
  }

  // ---------------------------------------------------------------------------
  // addSeed
  // ---------------------------------------------------------------------------

  /**
   * Each guard of addSeed answers with its own error, in order, and a request
   * stopped by a guard writes nothing.  Only a failed create leaves a trace:
   * the registry flag written before it.
   */
  lemma AddSeedGuards(t: Tables, body: map<Attr, JsValue>, files: seq<string>)
    ensures var (r, t') := AddSeedSpec(t, body, files);
            var present := FirstMissing(AddSeedRequired, body).None?;
            var data := Lowercased(body, []);
            && (!present <==> r.Failure? && r.error.MissingField?)
            && (!present ==> exists a :: a in AddSeedRequired && a !in body && r.error.field == Name(a))
            && (r == Failure(FrontError(ImageRequiredMsg, "images")) <==> present && files == [])
            && (r == Failure(ValidationError(AddDaysMsg)) <==>
                  present && files != [] && DaysOutOfOrder(data))
            && (r == Failure(ConflictError(DuplicateMsg)) <==>
                  present && files != [] && !DaysOutOfOrder(data) && IsDuplicate(t.seeds, data))
            && (r.Failure? && r.error != PersistenceRejected ==> t' == t)
            && (r == Failure(PersistenceRejected) ==>
                  t' == t.(registry := MarkInFarmacie(t.registry, data)))
  {
  }

  /** Adding a valid row under the next key keeps the tables valid. */
  lemma InsertSeedKeepsValid(t: Tables, seed: Seed, registry: map<string, bool>)
    requires TablesValid(t)
    requires SeedModel.Valid(seed) && seed.uuid == t.nextId
    ensures TablesValid(Tables(t.seeds[t.nextId := seed], t.images, registry, t.nextId + 1))
  {
  }

  /** Attaching images to a stored seed keeps the tables valid. */
  lemma AttachImagesKeepsValid(t: Tables, files: seq<string>, owner: Uuid)
    requires TablesValid(t) && owner in t.seeds
    ensures TablesValid(AttachImages(t, files, owner))
  {
    var t' := AttachImages(t, files, owner);
    forall k | k in t'.images
      ensures k < t'.nextId && t'.images[k].seedFk in t'.seeds
    {
      if k !in t.images {
        assert t'.images[k] == SeedImage(ImageUrls(files)[k - t.nextId], owner);
      }
    }
  }

  /**
   * Attaching images keeps every existing image and adds one image per file,
   * under keys nobody held, owned by `owner` and holding the file's relative path.
   */
  lemma AttachImagesAdds(t: Tables, files: seq<string>, owner: Uuid)
    requires forall k :: k in t.images ==> k < t.nextId
    ensures var t' := AttachImages(t, files, owner);
            && t'.seeds == t.seeds && t'.registry == t.registry
            && ImagesAdded(t.images, t'.images, t.nextId, ImageUrls(files), owner)
  {
    var urls := ImageUrls(files);
    var added := NewImages(t.nextId, urls, owner);
    var all := t.images + added;
    assert AttachImages(t, files, owner).images == all;
    forall k | k in t.images
      ensures k in all && all[k] == t.images[k]
    {
      assert k !in added;
    }
    forall i | 0 <= i < |files|
      ensures t.nextId + i !in t.images && all[t.nextId + i] == SeedImage(urls[i], owner)
    {
      assert t.nextId + i in added;
    }
  }

  /** What storing a created row leaves behind. */
  lemma StoredSeedTables(t: Tables, seed: Seed, files: seq<string>)
    ensures StoreCreated(t, Some(seed), files) ==
            (Success(SeedAddedMsg, ()), AttachImages(t.(seeds := t.seeds[t.nextId := seed], nextId := t.nextId + 1), files, t.nextId))
  {
  }

  /** Storing a valid row under the next key, then its images, keeps the tables valid. */
  lemma StoreCreatedKeepsValid(t: Tables, created: Option<Seed>, files: seq<string>)
    requires TablesValid(t)
    requires created.Some? ==> SeedModel.Valid(created.value) && created.value.uuid == t.nextId
    ensures var (r, t') := StoreCreated(t, created, files);
            && TablesValid(t')
            && (r.Success? <==> created.Some?)
            && (created.Some? ==> t.nextId !in t.seeds && t'.seeds == t.seeds[t.nextId := created.value])
  {
    if created.Some? {
      var t1 := t.(seeds := t.seeds[t.nextId := created.value], nextId := t.nextId + 1);
      InsertSeedKeepsValid(t, created.value, t.registry);
      assert t1 == Tables(t.seeds[t.nextId := created.value], t.images, t.registry, t.nextId + 1);
      AttachImagesKeepsValid(t1, files, t.nextId);
      StoredSeedTables(t, created.value, files);
    }
  }

  /**
   * addSeed keeps the tables valid; a successful one stores one new seed, the
   * row `Seed.create` built, under a fresh uuid.
   */
  lemma AddSeedKeepsValid(t: Tables, body: map<Attr, JsValue>, files: seq<string>)
    requires TablesValid(t)
    ensures var (r, t') := AddSeedSpec(t, body, files);
            var created := Create(t.nextId, CreateAttrs(t.registry, Lowercased(body, [])));
            && TablesValid(t')
            && (r.Success? ==>
                  && created.Some?
                  && t.nextId !in t.seeds
                  && t'.seeds == t.seeds[t.nextId := created.value])
  {
    var data := Lowercased(body, []);
    if FirstMissing(AddSeedRequired, body).None? && files != [] && !DaysOutOfOrder(data) && !IsDuplicate(t.seeds, data) {
      assert AddSeedSpec(t, body, files) == AddSeedWrite(t, data, files);
      StoreCreatedKeepsValid(t.(registry := MarkInFarmacie(t.registry, data)),
                             Create(t.nextId, CreateAttrs(t.registry, data)), files);
    }
  }

  /**
   * A successful addSeed passed every guard, and its outcome is that of storing
   * the row `Seed.create` built from the lower-cased body, after the registry write.
   */
  lemma AddSeedSucceeded(t: Tables, body: map<Attr, JsValue>, files: seq<string>)
    requires AddSeedSpec(t, body, files).0.Success?
    ensures var data := Lowercased(body, []);
            && AddSeedCheck(t.seeds, body, files).None?
            && Create(t.nextId, CreateAttrs(t.registry, data)).Some?
            && AddSeedSpec(t, body, files) ==
               StoreCreated(t.(registry := MarkInFarmacie(t.registry, data)),
                            Create(t.nextId, CreateAttrs(t.registry, data)), files)
  {
  }

  /** Storing the outcome of `Seed.create` succeeds exactly when the create produced a row. */
  lemma StoreCreatedSucceeds(t: Tables, created: Option<Seed>, files: seq<string>)
    ensures StoreCreated(t, created, files).0.Success? <==> created.Some?
  {
  }

  /**
   * addSeed succeeds exactly when every required field is present, an image is
   * attached, the days are not out of order, no stored seed has the same
   * listing, and `Seed.create` accepts the row.
   */
  lemma AddSeedSucceedsExactly(t: Tables, body: map<Attr, JsValue>, files: seq<string>)
    ensures var data := Lowercased(body, []);
            AddSeedSpec(t, body, files).0.Success? <==>
              && (forall i :: 0 <= i < |AddSeedRequired| ==> AddSeedRequired[i] in body)
              && files != []
              && !DaysOutOfOrder(data)
              && !IsDuplicate(t.seeds, data)
              && Create(t.nextId, CreateAttrs(t.registry, data)).Some?
  {
    var data := Lowercased(body, []);
    StoreCreatedSucceeds(t.(registry := MarkInFarmacie(t.registry, data)),
                         Create(t.nextId, CreateAttrs(t.registry, data)), files);
  }

  /**
   * A successful addSeed flags the new seed in_simulator when the registry knows
   * its variety and marks that registry entry in_farmacie; otherwise the registry
   * is untouched and the flag is the body's own, false by default.
   */
  lemma AddSeedSimulatorFlag(t: Tables, body: map<Attr, JsValue>, files: seq<string>)
    ensures var (r, t') := AddSeedSpec(t, body, files);
            var data := Lowercased(body, []);
            r.Success? ==>
              && t.nextId in t'.seeds
              && (InRegistry(t.registry, data) ==>
                    && Lookup(t'.seeds[t.nextId].values, InSimulator) == Some(JBool(true))
                    && t'.registry == t.registry[data[SeedVarietyName].s := true])
              && (!InRegistry(t.registry, data) ==>
                    && t'.registry == t.registry
                    && Lookup(t'.seeds[t.nextId].values, InSimulator) ==
                       Some(if InSimulator in data then data[InSimulator] else JBool(false)))
  {
    if AddSeedSpec(t, body, files).0.Success? {
      AddSeedSucceeded(t, body, files);
      var data := Lowercased(body, []);
      var attrs := CreateAttrs(t.registry, data);
      var seed := Create(t.nextId, attrs).value;
      StoredSeedTables(t.(registry := MarkInFarmacie(t.registry, data)), seed, files);
      assert Lookup(seed.values, InSimulator) == Initial(attrs, InSimulator);
    }
  }

  /**
   * A successful addSeed keeps every existing image and adds exactly one image
   * per uploaded file, each owned by the new seed and holding the file's
   * relative path.
   */
  lemma AddSeedImages(t: Tables, body: map<Attr, JsValue>, files: seq<string>)
    requires forall k :: k in t.images ==> k < t.nextId
    ensures var (r, t') := AddSeedSpec(t, body, files);
            r.Success? ==> ImagesAdded(t.images, t'.images, t.nextId + 1, ImageUrls(files), t.nextId)
  {
    if AddSeedSpec(t, body, files).0.Success? {
      var data := Lowercased(body, []);
      var seed := Create(t.nextId, CreateAttrs(t.registry, data)).value;
      AddSeedStoredTables(t, body, files);
      AttachImagesAdds(Tables(t.seeds[t.nextId := seed], t.images, MarkInFarmacie(t.registry, data), t.nextId + 1),
                       files, t.nextId);
    }
  }

  /** The tables a successful addSeed leaves: the created row stored, the registry flagged, then the images. */
  lemma AddSeedStoredTables(t: Tables, body: map<Attr, JsValue>, files: seq<string>)
    requires AddSeedSpec(t, body, files).0.Success?
    ensures var data := Lowercased(body, []);
            && Create(t.nextId, CreateAttrs(t.registry, data)).Some?
            && AddSeedSpec(t, body, files).1 ==
               AttachImages(Tables(t.seeds[t.nextId := Create(t.nextId, CreateAttrs(t.registry, data)).value],
                                   t.images, MarkInFarmacie(t.registry, data), t.nextId + 1), files, t.nextId)
  {
    AddSeedSucceeded(t, body, files);
    var data := Lowercased(body, []);
    var mid := t.(registry := MarkInFarmacie(t.registry, data));
    var seed := Create(t.nextId, CreateAttrs(t.registry, data)).value;
    StoredSeedTables(mid, seed, files);
    assert mid.(seeds := mid.seeds[mid.nextId := seed], nextId := mid.nextId + 1) ==
           Tables(t.seeds[t.nextId := seed], t.images, MarkInFarmacie(t.registry, data), t.nextId + 1);
  }

  /** A row created from a body holding both harvesting days in order keeps them so. */
  lemma CreatedDaysInOrder(id: Uuid, registry: map<string, bool>, data: map<Attr, JsValue>)
    requires Create(id, CreateAttrs(registry, data)).Some?
    requires MinHarvestingDays in data && MaxHarvestingDays in data && !DaysOutOfOrder(data)
    ensures DaysInOrder(Create(id, CreateAttrs(registry, data)).value)
  {
    var attrs := CreateAttrs(registry, data);
    CreateStores(id, attrs);
    var seed := Create(id, attrs).value;
    assert Lookup(seed.values, MinHarvestingDays) == Some(data[MinHarvestingDays]);
    assert Lookup(seed.values, MaxHarvestingDays) == Some(data[MaxHarvestingDays]);
    ValidIntegers(seed, MinHarvestingDays);
    ValidIntegers(seed, MaxHarvestingDays);
  }

  /** A seed stored by addSeed has both harvesting days, the minimum not above the maximum. */
  lemma AddSeedDaysInOrder(t: Tables, body: map<Attr, JsValue>, files: seq<string>)
    ensures var (r, t') := AddSeedSpec(t, body, files);
            r.Success? ==> t.nextId in t'.seeds && DaysInOrder(t'.seeds[t.nextId])
  {
    if AddSeedSpec(t, body, files).0.Success? {
      AddSeedSucceeded(t, body, files);
      var data := Lowercased(body, []);
      assert AddSeedRequired[9] in body && AddSeedRequired[10] in body;
      CreatedDaysInOrder(t.nextId, t.registry, data);
      StoredSeedTables(t.(registry := MarkInFarmacie(t.registry, data)),
                       Create(t.nextId, CreateAttrs(t.registry, data)).value, files);
    }
  }

  /** A row created from `data` agrees with `data` on every listing column. */
  lemma CreatedSameListing(id: Uuid, registry: map<string, bool>, data: map<Attr, JsValue>)
    requires Create(id, CreateAttrs(registry, data)).Some?
    ensures SameListing(Create(id, CreateAttrs(registry, data)).value.values, data)
  {
    var attrs := CreateAttrs(registry, data);
    var row := Create(id, attrs).value.values;
    assert row == InitialRow(attrs);
    forall i | 0 <= i < |ListingKeys|
      ensures Lookup(row, ListingKeys[i]) == Lookup(data, ListingKeys[i])
    {
      var k := ListingKeys[i];
      assert k != InSimulator && ColumnOf(k).default.None?;
      assert Lookup(row, k) == Initial(attrs, k);
    }
  }

  /** The same addSeed request made twice succeeds at most once: the second is a conflict. */
  lemma AddSeedTwiceConflicts(t: Tables, body: map<Attr, JsValue>, files: seq<string>)
    ensures var (r, t') := AddSeedSpec(t, body, files);
            r.Success? ==> AddSeedSpec(t', body, files) == (Failure(ConflictError(DuplicateMsg)), t')
  {
    if AddSeedSpec(t, body, files).0.Success? {
      AddSeedSucceeded(t, body, files);
      var data := Lowercased(body, []);
      var seed := Create(t.nextId, CreateAttrs(t.registry, data)).value;
      CreatedSameListing(t.nextId, t.registry, data);
      StoredSeedTables(t.(registry := MarkInFarmacie(t.registry, data)), seed, files);
      var t' := AddSeedSpec(t, body, files).1;
      assert t.nextId in t'.seeds && t'.seeds[t.nextId] == seed;
      assert IsDuplicate(t'.seeds, data);
    }
  }

  // ---------------------------------------------------------------------------
  // updateSeed
  // ---------------------------------------------------------------------------

  /** updateSeed without a uuid, or with one no seed has, answers so and changes nothing. */
  lemma UpdateSeedRejectsUnknown(t: Tables, uuid: Option<Uuid>, body: map<Attr, JsValue>, files: seq<string>)
    requires uuid.None? || uuid.value !in t.seeds
    ensures var (r, t') := UpdateSeedSpec(t, uuid, body, files);
            && t' == t
            && r == (if uuid.None? then Failure(MissingField("uuid")) else Failure(NotFound(SeedNotFoundMsg, None)))
  {
  }

  /** `UpdateRow` touches only row `id`, and that row only on success, in the supplied columns. */
  lemma UpdateRowEffects(t: Tables, id: Uuid, data: map<Attr, JsValue>)
    requires id in t.seeds
    ensures var (r, t') := UpdateRow(t, id, data);
            && t'.images == t.images && t'.registry == t.registry && t'.nextId == t.nextId
            && t'.seeds.Keys == t.seeds.Keys
            && (forall k :: k in t.seeds && k != id ==> t'.seeds[k] == t.seeds[k])
            && (r.Failure? ==> t'.seeds == t.seeds)
            && (r.Success? ==>
                  && t'.seeds[id].uuid == t.seeds[id].uuid
                  && forall a :: Lookup(t'.seeds[id].values, a) ==
                                 (if a in data then Some(data[a]) else Lookup(t.seeds[id].values, a)))
  {
  }

  /**
   * updateSeed on a known uuid writes the new images before any check, so they
   * stay even when the update is rejected; the seed row changes only on
   * success, and then only in the supplied columns.
   */
  lemma UpdateSeedEffects(t: Tables, uuid: Uuid, body: map<Attr, JsValue>, files: seq<string>)
    requires TablesValid(t) && uuid in t.seeds
    ensures var (r, t') := UpdateSeedSpec(t, Some(uuid), body, files);
            var data := Lowercased(body, []);
            && ImagesAdded(t.images, t'.images, t.nextId, ImageUrls(files), uuid)
            && t'.registry == t.registry
            && t'.seeds.Keys == t.seeds.Keys
            && (forall k :: k in t.seeds && k != uuid ==> t'.seeds[k] == t.seeds[k])
            && (r.Failure? ==> t'.seeds == t.seeds)
            && (r.Success? ==>
                  && t'.seeds[uuid].uuid == uuid
                  && forall a :: Lookup(t'.seeds[uuid].values, a) ==
                                 (if a in data then Some(data[a]) else Lookup(t.seeds[uuid].values, a)))
  {
    var t1 := if files != [] then AttachImages(t, files, uuid) else t;
    assert UpdateSeedSpec(t, Some(uuid), body, files) == UpdateRow(t1, uuid, Lowercased(body, []));
    AttachImagesAdds(t, files, uuid);
    assert files == [] ==> t1.images == t.images;
    assert t1.seeds == t.seeds && t1.registry == t.registry;
    UpdateRowEffects(t1, uuid, Lowercased(body, []));
  }

  /**
   * The harvesting-day checks of updateSeed, each for a present non-zero value:
   * a new min above the new max, a new min above the stored max, and a new max
   * below the stored min are all rejected.
   */
  lemma UpdateSeedDayChecks(t: Tables, uuid: Uuid, body: map<Attr, JsValue>, files: seq<string>)
    requires uuid in t.seeds
    ensures var r := UpdateSeedSpec(t, Some(uuid), body, files).0;
            var data := Lowercased(body, []);
            var newMin := ParseInt(Lookup(data, MinHarvestingDays));
            var newMax := ParseInt(Lookup(data, MaxHarvestingDays));
            var storedMin := StoredDays(t.seeds[uuid].values, MinHarvestingDays);
            var storedMax := StoredDays(t.seeds[uuid].values, MaxHarvestingDays);
            && (TruthyNumber(newMin) && TruthyNumber(newMax) && newMin.value > newMax.value ==>
                  r == Failure(ValidationError(UpdateMinMsg)))
            && (TruthyNumber(newMin) && newMin.value > storedMax ==> r == Failure(ValidationError(UpdateMinMsg)))
            && (TruthyNumber(newMax) && newMax.value < storedMin ==> r.Failure? && r.error.ValidationError?)
            && (r.Success? ==>
                  && (TruthyNumber(newMin) ==> newMin.value <= storedMax)
                  && (TruthyNumber(newMax) ==> storedMin <= newMax.value))
  {
  }

  /**
   * updateSeed on a known seed succeeds exactly when none of the three
   * harvesting-day checks fires and the row update accepts the supplied columns.
   */
  lemma UpdateSeedSucceedsExactly(t: Tables, uuid: Uuid, body: map<Attr, JsValue>, files: seq<string>)
    requires uuid in t.seeds
    ensures var data := Lowercased(body, []);
            UpdateSeedSpec(t, Some(uuid), body, files).0.Success? <==>
              && UpdateDaysError(ParseInt(Lookup(data, MinHarvestingDays)),
                                 ParseInt(Lookup(data, MaxHarvestingDays)),
                                 StoredDays(t.seeds[uuid].values, MinHarvestingDays),
                                 StoredDays(t.seeds[uuid].values, MaxHarvestingDays)).None?
              && Update(t.seeds[uuid], data).Some?
  {
    var t1 := if files != [] then AttachImages(t, files, uuid) else t;
    assert t1.seeds == t.seeds;
    assert UpdateSeedSpec(t, Some(uuid), body, files) == UpdateRow(t1, uuid, Lowercased(body, []));
  }

  /**
   * A partial update that sets only min_harvesting_days to a value not above
   * the stored maximum succeeds, and leaves the stored maximum as it was.
   */
  lemma UpdateSeedPartialMinSucceeds(t: Tables, uuid: Uuid, n: int)
    requires uuid in t.seeds && DaysInOrder(t.seeds[uuid])
    requires n <= t.seeds[uuid].values[MaxHarvestingDays].n
    ensures var (r, t') := UpdateSeedSpec(t, Some(uuid), map[MinHarvestingDays := JInt(n)], []);
            && r == Success(SeedUpdatedMsg, ())
            && t'.seeds[uuid].values[MinHarvestingDays] == JInt(n)
            && t'.seeds[uuid].values[MaxHarvestingDays] == t.seeds[uuid].values[MaxHarvestingDays]
  {
    var body := map[MinHarvestingDays := JInt(n)];
    assert Lowercased(body, []) == body;
    var updated := Update(t.seeds[uuid], body).value;
    assert Lookup(updated.values, MinHarvestingDays) == Some(JInt(n));
    assert Lookup(updated.values, MaxHarvestingDays) == Lookup(t.seeds[uuid].values, MaxHarvestingDays);
  }

  /** The seed row's harvesting days, both set and in order. */
  predicate DaysInOrder(seed: Seed)
  {
    && MinHarvestingDays in seed.values && seed.values[MinHarvestingDays].JInt?
    && MaxHarvestingDays in seed.values && seed.values[MaxHarvestingDays].JInt?
    && seed.values[MinHarvestingDays].n <= seed.values[MaxHarvestingDays].n
  }

  /** The harvesting-day checks of `UpdateRow` keep a row's days in order unless a day is set to 0. */
  lemma UpdateRowKeepsDaysInOrder(t: Tables, id: Uuid, data: map<Attr, JsValue>)
    requires id in t.seeds && DaysInOrder(t.seeds[id])
    requires Lookup(data, MinHarvestingDays) != Some(JInt(0))
    requires Lookup(data, MaxHarvestingDays) != Some(JInt(0))
    ensures UpdateRow(t, id, data).0.Success? ==> DaysInOrder(UpdateRow(t, id, data).1.seeds[id])
  {
    var updated := Update(t.seeds[id], data);
    if updated.Some? {
      assert Lookup(updated.value.values, MinHarvestingDays) ==
             (if MinHarvestingDays in data then Some(data[MinHarvestingDays])
              else Lookup(t.seeds[id].values, MinHarvestingDays));
      assert Lookup(updated.value.values, MaxHarvestingDays) ==
             (if MaxHarvestingDays in data then Some(data[MaxHarvestingDays])
              else Lookup(t.seeds[id].values, MaxHarvestingDays));
    }
  }

  /**
   * When the body gives no 0 for either harvesting day, a successful updateSeed
   * keeps min_harvesting_days <= max_harvesting_days.
   */
  lemma UpdateSeedKeepsDaysInOrder(t: Tables, uuid: Uuid, body: map<Attr, JsValue>, files: seq<string>)
    requires uuid in t.seeds && DaysInOrder(t.seeds[uuid])
    requires Lookup(body, MinHarvestingDays) != Some(JInt(0))
    requires Lookup(body, MaxHarvestingDays) != Some(JInt(0))
    ensures var (r, t') := UpdateSeedSpec(t, Some(uuid), body, files);
            r.Success? ==> DaysInOrder(t'.seeds[uuid])
  {
    var data := Lowercased(body, []);
    var t1 := if files != [] then AttachImages(t, files, uuid) else t;
    assert UpdateSeedSpec(t, Some(uuid), body, files) == UpdateRow(t1, uuid, data);
    assert t1.seeds == t.seeds;
    UpdateRowKeepsDaysInOrder(t1, uuid, data);
  }

  /**
   * The 0 loophole: an update that sets max_harvesting_days to 0 skips every
   * check, succeeds, and leaves a seed whose stored minimum exceeds its maximum.
   */
  lemma UpdateSeedZeroMaxBreaksOrder(t: Tables, uuid: Uuid)
    requires uuid in t.seeds && DaysInOrder(t.seeds[uuid])
    requires t.seeds[uuid].values[MinHarvestingDays].n > 0
    ensures var (r, t') := UpdateSeedSpec(t, Some(uuid), map[MaxHarvestingDays := JInt(0)], []);
            && r == Success(SeedUpdatedMsg, ())
            && !DaysInOrder(t'.seeds[uuid])
  {
    var body := map[MaxHarvestingDays := JInt(0)];
    var data := Lowercased(body, []);
    assert data == body;
    var updated := Update(t.seeds[uuid], data).value;
    assert Lookup(updated.values, MaxHarvestingDays) == Some(JInt(0));
    assert Lookup(updated.values, MinHarvestingDays) == Lookup(t.seeds[uuid].values, MinHarvestingDays);
  }

  /** Replacing a stored row by a valid one with the same uuid keeps the tables valid. */
  lemma ReplaceSeedKeepsValid(t: Tables, seed: Seed)
    requires TablesValid(t) && seed.uuid in t.seeds && SeedModel.Valid(seed)
    ensures TablesValid(t.(seeds := t.seeds[seed.uuid := seed]))
  {
  }

  lemma UpdateSeedKeepsValid(t: Tables, uuid: Option<Uuid>, body: map<Attr, JsValue>, files: seq<string>)
    requires TablesValid(t)
    ensures TablesValid(UpdateSeedSpec(t, uuid, body, files).1)
  {
    if uuid.Some? && uuid.value in t.seeds {
      var id := uuid.value;
      var t1 := if files != [] then AttachImages(t, files, id) else t;
      if files != [] {
        AttachImagesKeepsValid(t, files, id);
      }
      var (r, t') := UpdateRow(t1, id, Lowercased(body, []));
      if r.Success? {
        var seed := Update(t.seeds[id], Lowercased(body, [])).value;
        assert t' == t1.(seeds := t1.seeds[id := seed]);
        ReplaceSeedKeepsValid(t1, seed);
      }
    }
  }

  // ---------------------------------------------------------------------------
  // deleteSeed, deleteSeedImg
  // ---------------------------------------------------------------------------

  /**
   * deleteSeed removes the seed and every image whose seed_fk is its uuid, and
   * nothing else; it succeeds whether or not the seed existed.
   */
  lemma DeleteSeedCascades(t: Tables, uuid: Uuid)
    requires TablesValid(t)
    ensures var (r, t') := DeleteSeedSpec(t, Some(uuid));
            && r == Success(SeedDeletedMsg, ())
            && t'.seeds.Keys == t.seeds.Keys - {uuid}
            && (forall k :: k in t'.seeds ==> t'.seeds[k] == t.seeds[k])
            && (forall k :: k in t'.images ==> t'.images[k].seedFk != uuid)
            && (forall k :: k in t.images && t.images[k].seedFk != uuid ==>
                  k in t'.images && t'.images[k] == t.images[k])
            && (forall k :: k in t'.images ==> k in t.images)
            && t'.registry == t.registry
            && TablesValid(t')
  {
  }

  /** deleteSeedImg removes that one image and leaves the seeds and other images alone. */
  lemma DeleteSeedImgRemovesOne(t: Tables, imgUid: Uuid)
    requires TablesValid(t)
    ensures var (r, t') := DeleteSeedImgSpec(t, Some(imgUid));
            && r == Success(ImageDeletedMsg, ())
            && imgUid !in t'.images
            && t'.seeds == t.seeds && t'.registry == t.registry && t'.nextId == t.nextId
            && (forall k :: k in t.images && k != imgUid ==> k in t'.images && t'.images[k] == t.images[k])
            && (forall k :: k in t'.images ==> k in t.images)
            && TablesValid(t')
  {
  }

  // ---------------------------------------------------------------------------
  // alreadyInSimulator
  // ---------------------------------------------------------------------------

  /**
   * alreadyInSimulator sets the flag of a known seed and changes nothing else;
   * when the flag was already set it reports so and writes nothing.
   */
  lemma AlreadyInSimulatorEffect(t: Tables, uuid: Uuid)
    requires uuid in t.seeds
    ensures var (r, t') := AlreadyInSimulatorSpec(t, Some(uuid));
            && (IsInSimulator(t.seeds[uuid]) <==> r == Success(AlreadySetMsg, ()))
            && (IsInSimulator(t.seeds[uuid]) ==> t' == t)
            && (!IsInSimulator(t.seeds[uuid]) ==> r == Success(StatusUpdatedMsg, ()))
            && IsInSimulator(t'.seeds[uuid])
            && Lookup(t'.seeds[uuid].values, InSimulator) ==
               (if IsInSimulator(t.seeds[uuid]) then Lookup(t.seeds[uuid].values, InSimulator)
                else Some(JBool(true)))
            && t'.seeds.Keys == t.seeds.Keys
            && (forall k :: k in t.seeds && k != uuid ==> t'.seeds[k] == t.seeds[k])
            && t'.images == t.images && t'.registry == t.registry
  {
  }

  /** A second alreadyInSimulator call changes nothing and answers "already set". */
  lemma {:induction false} AlreadyInSimulatorIdempotent(t: Tables, uuid: Option<Uuid>)
    ensures var (r1, t1) := AlreadyInSimulatorSpec(t, uuid);
            var (r2, t2) := AlreadyInSimulatorSpec(t1, uuid);
            && t2 == t1
            && (uuid.Some? && uuid.value in t.seeds ==> r2 == Success(AlreadySetMsg, ()))
  {
    if uuid.Some? && uuid.value in t.seeds {
      AlreadyInSimulatorEffect(t, uuid.value);
    }
  }

  lemma AlreadyInSimulatorKeepsValid(t: Tables, uuid: Option<Uuid>)
    requires TablesValid(t)
    ensures TablesValid(AlreadyInSimulatorSpec(t, uuid).1)
  {
    if uuid.Some? && uuid.value in t.seeds && !IsInSimulator(t.seeds[uuid.value]) {
      var seed := t.seeds[uuid.value];
      var marked := seed.(values := seed.values[InSimulator := JBool(true)]);
      forall a
        ensures ColumnOk(ColumnOf(a), Lookup(marked.values, a))
      {
        assert a != InSimulator ==> Lookup(marked.values, a) == Lookup(seed.values, a);
      }
    }
  }
}

=== FILE: seed_model.dfy ===
/**
 * The `seed` table as declared in src/models/seed/seed.model.js: its attributes
 * with their types, nullability, validators and defaults, the validation a
 * create or an update runs against them, and the Seed -> SeedImage cascade.
 */
module SeedModel {
  import opened JsValues

  /** Column types together with the validators declared on them. */
  datatype ColumnKind =
    | StringColumn                                         // STRING / TEXT
    | IntegerColumn(min: Option<int>, max: Option<int>)   // INTEGER, isInt, optional min/max
    | EnumColumn(options: set<string>)                     // ENUM with an isIn validator
    | BooleanColumn

  datatype Column = Column(kind: ColumnKind, allowNull: bool, default: Option<JsValue>)

  const Regions: set<string> := {"irrigated", "rainfed", "drought"}

  /** The attributes of the model other than the primary key and the timestamps. */
  datatype Attr =
    | SeedVarietyName | CompanyFk | CropCategory | Crop | SeedWeight | PackageWeight | PackageType
    | GerminationPercentage | MaturityPercentage | MinHarvestingDays | MaxHarvestingDays
    | SuitableRegion | HeightClass | NutrientContent | CommonDiseaseTolerance | EnvResilienceFators
    | UniqueFeatures | Price | Description | InSimulator | TrialCount

  /** The attribute's field name in a request body and in an error reply. */
  function Name(a: Attr): string
  {
    match a
    case SeedVarietyName => "seed_variety_name"
    case CompanyFk => "company_fk"
    case CropCategory => "crop_category"
    case Crop => "crop"
    case SeedWeight => "seed_weight"
    case PackageWeight => "package_weight"
    case PackageType => "package_type"
    case GerminationPercentage => "germination_percentage"
    case MaturityPercentage => "maturity_percentage"
    case MinHarvestingDays => "min_harvesting_days"
    case MaxHarvestingDays => "max_harvesting_days"
    case SuitableRegion => "suitable_region"
    case HeightClass => "height_class"
    case NutrientContent => "nutrient_content"
    case CommonDiseaseTolerance => "common_disease_tolerance"
    case EnvResilienceFators => "env_resilience_fators"
    case UniqueFeatures => "unique_features"
    case Price => "price"
    case Description => "description"
    case InSimulator => "in_simulator"
    case TrialCount => "trial_count"
  }

  /**
   * The column each attribute is declared as.  The columns declared
   * `allowNull: false` are strings without a default, so a create must supply
   * them; every declared default passes its own column.
   */
  function ColumnOf(a: Attr): (c: Column)
    ensures !c.allowNull ==> c.kind.StringColumn? && c.default.None?
    ensures c.default.Some? ==> ColumnOk(c, c.default)
  {
    match a
    case SeedVarietyName | CompanyFk | CropCategory | Crop => Column(StringColumn, false, None)
    case SeedWeight | PackageWeight | MinHarvestingDays | MaxHarvestingDays | Price =>
      Column(IntegerColumn(None, None), true, None)
    case GerminationPercentage | MaturityPercentage => Column(IntegerColumn(Some(0), Some(100)), true, None)
    case SuitableRegion => Column(EnumColumn(Regions), true, None)
    case PackageType | HeightClass | NutrientContent | CommonDiseaseTolerance | EnvResilienceFators
       | UniqueFeatures | Description => Column(StringColumn, true, None)
    case InSimulator => Column(BooleanColumn, true, Some(JBool(false)))
    case TrialCount => Column(IntegerColumn(None, None), true, Some(JInt(0)))
  }

  /** The four attributes declared `allowNull: false`. */
  const NonNullStrings: set<Attr> := {SeedVarietyName, CompanyFk, CropCategory, Crop}

  /** The attributes declared with a `defaultValue`. */
  const Defaulted: set<Attr> := {InSimulator, TrialCount}

  lemma DefaultedExactly(a: Attr)
    ensures ColumnOf(a).default.Some? <==> a in Defaulted
  {
  }

  /** A stored row: its primary key and the non-null attribute values. */
  datatype Seed = Seed(uuid: Uuid, values: map<Attr, JsValue>)

  /** A stored image reference, owned by the seed `seedFk`. */
  datatype SeedImage = SeedImage(imageUrl: string, seedFk: Uuid)

  /**
   * A column value (None = NULL) passes the column's nullability and its
   * declared validators.  A STRING or TEXT column takes any scalar; isInt,
   * min/max and isIn refuse whatever they do not describe.
   */
  predicate ColumnOk(column: Column, v: Option<JsValue>)
  {
    match v
    case None => column.allowNull
    case Some(JStr(s)) =>
      column.kind.StringColumn? || (column.kind.EnumColumn? && s in column.kind.options)
    case Some(JInt(n)) =>
      || column.kind.StringColumn?
      || (&& column.kind.IntegerColumn?
          && (column.kind.min.Some? ==> column.kind.min.value <= n)
          && (column.kind.max.Some? ==> n <= column.kind.max.value))
    case Some(JBool(_)) => column.kind.StringColumn? || column.kind.BooleanColumn?
  }

  /** Every attribute of the row satisfies its column declaration. */
  predicate RowOk(values: map<Attr, JsValue>)
  {
    forall a :: ColumnOk(ColumnOf(a), Lookup(values, a))
  }

  predicate Valid(seed: Seed)
  {
    RowOk(seed.values)
  }

  /** The value a create stores for `a`: the supplied one, else the column default. */
  function Initial(attrs: map<Attr, JsValue>, a: Attr): Option<JsValue>
  {
    if a in attrs then Some(attrs[a]) else ColumnOf(a).default
  }

  /** The row a create stores: the supplied attributes over the declared defaults. */
  function InitialRow(attrs: map<Attr, JsValue>): (row: map<Attr, JsValue>)
    ensures forall a :: Lookup(row, a) == Initial(attrs, a)
  {
    var row := map a | a in attrs.Keys + Defaulted :: Initial(attrs, a).value;
    assert forall a :: Lookup(row, a) == Initial(attrs, a) by {
      forall a ensures Lookup(row, a) == Initial(attrs, a) {
        DefaultedExactly(a);
      }
    }
    row
  }

  /**
   * `Seed.create(attrs)` under primary key `id`: absent attributes take their
   * default, and the row is stored only when every attribute passes validation.
   */
  function Create(id: Uuid, attrs: map<Attr, JsValue>): (r: Option<Seed>)
    ensures r.Some? ==> r.value == Seed(id, InitialRow(attrs))
  {
    var row := InitialRow(attrs);
    if RowOk(row) then Some(Seed(id, row)) else None
  }

  /**
   * What a create stores: it succeeds exactly when every attribute's initial
   * value passes its column, and then the row is valid, keyed by `id`, and
   * holds each supplied value or else the column default.
   */
  lemma CreateStores(id: Uuid, attrs: map<Attr, JsValue>)
    ensures Create(id, attrs).Some? <==> forall a :: ColumnOk(ColumnOf(a), Initial(attrs, a))
    ensures Create(id, attrs).Some? ==>
              && Valid(Create(id, attrs).value) && Create(id, attrs).value.uuid == id
              && forall a :: Lookup(Create(id, attrs).value.values, a) ==
                             (if a in attrs then Some(attrs[a]) else ColumnOf(a).default)
  {
  }

  /**
   * `Seed.update(attrs, {where: {uuid}})` on the one row it matches: only the supplied attributes are
   * validated, and they replace the stored values.
   */
  function Update(seed: Seed, attrs: map<Attr, JsValue>): (r: Option<Seed>)
    ensures r.Some? <==> forall a :: a in attrs ==> ColumnOk(ColumnOf(a), Some(attrs[a]))
    ensures r.Some? ==> r.value.uuid == seed.uuid
    ensures r.Some? ==> forall a ::
              Lookup(r.value.values, a) == (if a in attrs then Some(attrs[a]) else Lookup(seed.values, a))
    ensures r.Some? && Valid(seed) ==> Valid(r.value)
  {
    if forall a :: a in attrs ==> ColumnOk(ColumnOf(a), Some(attrs[a]))
    then Some(seed.(values := seed.values + attrs))
    else None
  }

  /** A valid seed holds a value for each of its four non-null attributes. */
  lemma ValidHasRequiredFields(seed: Seed)
    requires Valid(seed)
    ensures forall a :: a in NonNullStrings ==> a in seed.values
  {
    forall a | a in NonNullStrings
      ensures a in seed.values
    {
      assert ColumnOk(ColumnOf(a), Lookup(seed.values, a));
    }
  }

  /** A valid seed's integer attributes hold integers within their declared bounds. */
  lemma ValidIntegers(seed: Seed, a: Attr)
    requires Valid(seed)
    requires ColumnOf(a).kind.IntegerColumn?
    ensures a in seed.values ==> seed.values[a].JInt?
    ensures a in seed.values && ColumnOf(a).kind.min.Some? ==> ColumnOf(a).kind.min.value <= seed.values[a].n
    ensures a in seed.values && ColumnOf(a).kind.max.Some? ==> seed.values[a].n <= ColumnOf(a).kind.max.value
  {
    assert ColumnOk(ColumnOf(a), Lookup(seed.values, a));
  }

  /** A valid seed's percentages, when set, are integers in 0..100. */
  lemma ValidPercentages(seed: Seed)
    requires Valid(seed)
    ensures GerminationPercentage in seed.values ==>
              seed.values[GerminationPercentage].JInt? && 0 <= seed.values[GerminationPercentage].n <= 100
    ensures MaturityPercentage in seed.values ==>
              seed.values[MaturityPercentage].JInt? && 0 <= seed.values[MaturityPercentage].n <= 100
  {
    ValidIntegers(seed, GerminationPercentage);
    ValidIntegers(seed, MaturityPercentage);
  }

  /** A valid seed's region, when set, is irrigated, rainfed or drought. */
  lemma ValidRegion(seed: Seed)
    requires Valid(seed)
    ensures SuitableRegion in seed.values ==>
              seed.values[SuitableRegion].JStr? &&
              seed.values[SuitableRegion].s in {"irrigated", "rainfed", "drought"}
  {
    assert ColumnOk(ColumnOf(SuitableRegion), Lookup(seed.values, SuitableRegion));
  }

  /** A create that omits a non-null string attribute fails. */
  lemma CreateRejectsMissingRequired(id: Uuid, attrs: map<Attr, JsValue>, a: Attr)
    requires a in NonNullStrings
    requires a !in attrs
    ensures Create(id, attrs).None?
  {
    CreateStores(id, attrs);
    assert !ColumnOk(ColumnOf(a), Initial(attrs, a));
  }

  /** A created seed has in_simulator = false and trial_count = 0 unless they are given. */
  lemma CreateDefaults(id: Uuid, attrs: map<Attr, JsValue>)
    requires Create(id, attrs).Some?
    ensures InSimulator !in attrs ==> Lookup(Create(id, attrs).value.values, InSimulator) == Some(JBool(false))
    ensures TrialCount !in attrs ==> Lookup(Create(id, attrs).value.values, TrialCount) == Some(JInt(0))
    ensures InSimulator in attrs ==> Lookup(Create(id, attrs).value.values, InSimulator) == Some(attrs[InSimulator])
  {
    CreateStores(id, attrs);
    var row := Create(id, attrs).value.values;
    assert Lookup(row, InSimulator) == (if InSimulator in attrs then Some(attrs[InSimulator])
                                        else ColumnOf(InSimulator).default);
    assert Lookup(row, TrialCount) == (if TrialCount in attrs then Some(attrs[TrialCount])
                                       else ColumnOf(TrialCount).default);
  }

  // ---------------------------------------------------------------------------
  // Seed -> SeedImage, onDelete: CASCADE
  // ---------------------------------------------------------------------------

  /** Every image belongs to a stored seed. */
  predicate ImagesOwned(seeds: map<Uuid, Seed>, images: map<Uuid, SeedImage>)
  {
    forall k :: k in images ==> images[k].seedFk in seeds
  }

  /** Deleting seed `uuid` together with every image whose seed_fk is `uuid`. */
  function CascadeDelete(seeds: map<Uuid, Seed>, images: map<Uuid, SeedImage>, uuid: Uuid)
    : (r: (map<Uuid, Seed>, map<Uuid, SeedImage>))
    ensures r.0.Keys == seeds.Keys - {uuid}
    ensures forall k :: k in r.0 ==> r.0[k] == seeds[k]
    ensures forall k :: k in r.1 <==> k in images && images[k].seedFk != uuid
    ensures forall k :: k in r.1 ==> r.1[k] == images[k]
    ensures ImagesOwned(seeds, images) ==> ImagesOwned(r.0, r.1)
  {
    (seeds - {uuid}, map k | k in images && images[k].seedFk != uuid :: images[k])
  }
}

=== FILE: utils.dfy ===
/**
 * The string and object helpers of src/utils/utils.js that the seed handlers
 * use: relative image paths, lower-casing a request body, capitalising words,
 * and the empty-input branch of e-mail validation.  Case mapping is ASCII only.
 */
module Utils {
  import opened JsValues

  // ---------------------------------------------------------------------------
  // ASCII case mapping
  // ---------------------------------------------------------------------------

  function LowerChar(c: char): char
  {
    if 'A' <= c <= 'Z' then (c as int + 32) as char else c
  }

  function UpperChar(c: char): char
  {
    if 'a' <= c <= 'z' then (c as int - 32) as char else c
  }

  /** `s.toLowerCase()` */
  function ToLower(s: string): string
  {
    seq(|s|, i requires 0 <= i < |s| => LowerChar(s[i]))
  }

  /** No upper-case ASCII letter occurs in `s`. */
  predicate IsLowerCase(s: string)
  {
    forall i :: 0 <= i < |s| ==> !('A' <= s[i] <= 'Z')
  }

  lemma ToLowerIsLowerCase(s: string)
    ensures IsLowerCase(ToLower(s))
    ensures ToLower(ToLower(s)) == ToLower(s)
    ensures |ToLower(s)| == |s|
  {
  }

  lemma ToLowerConcat(a: string, b: string)
    ensures ToLower(a + b) == ToLower(a) + ToLower(b)
  {
  }

  // ---------------------------------------------------------------------------
  // getRelativePath
  // ---------------------------------------------------------------------------

  /** The marker the upload directory is recognised by. */
  const StaticMarker: string := "/static"

  /** `fullPath.replace(/\\/g, '/')` */
  function NormalizeSeparators(p: string): string
  {
    seq(|p|, i requires 0 <= i < |p| => if p[i] == '\\' then '/' else p[i])
  }

  /** `pat` occurs in `s` starting at index `i`. */
  predicate OccursAt(s: string, pat: string, i: int)
  {
    0 <= i && i + |pat| <= |s| && s[i..i + |pat|] == pat
  }

  /** `s.indexOf(pat, from)`: the least occurrence at or after `from`, or -1. */
  function IndexOfFrom(s: string, pat: string, from: nat): (r: int)
    requires from <= |s|
    ensures r == -1 || (from <= r && OccursAt(s, pat, r))
    ensures r == -1 ==> forall j :: from <= j ==> !OccursAt(s, pat, j)
    ensures r != -1 ==> forall j :: from <= j < r ==> !OccursAt(s, pat, j)
    decreases |s| - from
  {
    if from + |pat| > |s| then -1
    else if s[from..from + |pat|] == pat then from
    else IndexOfFrom(s, pat, from + 1)
  }

  /** `s.indexOf(pat)` */
  function IndexOf(s: string, pat: string): (r: int)
    ensures r == -1 || OccursAt(s, pat, r)
    ensures r == -1 <==> forall j :: !OccursAt(s, pat, j)
    ensures r != -1 ==> forall j :: j < r ==> !OccursAt(s, pat, j)
  {
    IndexOfFrom(s, pat, 0)
  }

  /**
   * getRelativePath: the suffix of the separator-normalised path that starts at
   * the first "/static", or "" when there is none.
   */
  function GetRelativePath(fullPath: string): (r: string)
    ensures '\\' !in r
  {
    var normalizedPath := NormalizeSeparators(fullPath);
    var index := IndexOf(normalizedPath, StaticMarker);
    if index == -1 then "" else normalizedPath[index..]
  }

  /**
   * The relative path is "" exactly when the normalised path holds no
   * "/static"; otherwise it is the suffix that starts at the first one.
   */
  lemma RelativePathIsSuffix(fullPath: string)
    ensures var r := GetRelativePath(fullPath);
            var n := NormalizeSeparators(fullPath);
            && (r == "" <==> forall j :: !OccursAt(n, StaticMarker, j))
            && (r != "" ==>
                  && |StaticMarker| <= |r| <= |n|
                  && r == n[|n| - |r|..]
                  && r[..|StaticMarker|] == StaticMarker
                  && forall j :: j < |n| - |r| ==> !OccursAt(n, StaticMarker, j))
  {
  }

  // ---------------------------------------------------------------------------
  // convertToLowercase
  // ---------------------------------------------------------------------------

  /** The value `convertToLowercase` stores under `key`. */
  function LowerValue<K(==)>(key: K, value: JsValue, excludeFields: seq<K>): JsValue
  {
    if value.JStr? && key !in excludeFields then JStr(ToLower(value.s)) else value
  }

  /** The object `convertToLowercase(obj, excludeFields)` returns. */
  function Lowercased<K(==)>(obj: map<K, JsValue>, excludeFields: seq<K>): map<K, JsValue>
  {
    map key | key in obj :: LowerValue(key, obj[key], excludeFields)
  }

  /**
   * convertToLowercase: copies every own key of `obj`, lower-casing the string
   * values whose key is not excluded.  Generic in the key type: the handlers
   * apply it to request bodies keyed by the seed attributes.
   */
  method ConvertToLowercase<K(==)>(obj: map<K, JsValue>, excludeFields: seq<K>)
    returns (newObj: map<K, JsValue>)
    ensures newObj.Keys == obj.Keys
    ensures forall key :: key in obj ==>
              newObj[key] == (if obj[key].JStr? && key !in excludeFields
                              then JStr(ToLower(obj[key].s)) else obj[key])
    ensures newObj == Lowercased(obj, excludeFields)
  {
    newObj := map[];
    var pending := obj.Keys;
    while pending != {}
      invariant pending <= obj.Keys
      invariant newObj.Keys == obj.Keys - pending
      invariant forall key :: key in newObj ==> newObj[key] == LowerValue(key, obj[key], excludeFields)
      decreases pending
    {
      var key :| key in pending;
      var value := obj[key];
      if value.JStr? && key !in excludeFields {
        newObj := newObj[key := JStr(ToLower(value.s))];
      } else {
        newObj := newObj[key := value];
      }
      pending := pending - {key};
    }
  }

  /** Lower-casing a body twice is the same as lower-casing it once. */
  lemma LowercasedIdempotent<K>(obj: map<K, JsValue>, excludeFields: seq<K>)
    ensures Lowercased(Lowercased(obj, excludeFields), excludeFields) == Lowercased(obj, excludeFields)
  {
    var once := Lowercased(obj, excludeFields);
    forall key | key in once
      ensures LowerValue(key, once[key], excludeFields) == once[key]
    {
      if obj[key].JStr? && key !in excludeFields {
        ToLowerIsLowerCase(obj[key].s);
      }
    }
  }

  /** Every string value left under a non-excluded key is lower case. */
  lemma LowercasedStringsAreLowerCase<K>(obj: map<K, JsValue>, excludeFields: seq<K>, key: K)
    requires key in obj && key !in excludeFields && obj[key].JStr?
    ensures key in Lowercased(obj, excludeFields)
    ensures Lowercased(obj, excludeFields)[key].JStr?
    ensures IsLowerCase(Lowercased(obj, excludeFields)[key].s)
  {
    ToLowerIsLowerCase(obj[key].s);
  }

  // ---------------------------------------------------------------------------
  // capitalizeWords
  // ---------------------------------------------------------------------------

  /** `s.split(" ")`: always at least one piece, none containing a space. */
  function Split(s: string): (words: seq<string>)
    ensures |words| >= 1
    ensures forall i :: 0 <= i < |words| ==> ' ' !in words[i]
    decreases |s|
  {
    if s == [] then [""]
    else
      var rest := Split(s[1..]);
      if s[0] == ' ' then [""] + rest
      else [[s[0]] + rest[0]] + rest[1..]
  }

  /** `words.join(" ")` */
  function Join(words: seq<string>): string
    requires |words| >= 1
  {
    if |words| == 1 then words[0] else words[0] + " " + Join(words[1..])
  }

  /** `word.charAt(0).toUpperCase() + word.slice(1)` */
  function CapitalizeWord(word: string): string
  {
    if word == "" then "" else [UpperChar(word[0])] + word[1..]
  }

  function CapitalizeAll(words: seq<string>): (r: seq<string>)
  {
    seq(|words|, i requires 0 <= i < |words| => CapitalizeWord(words[i]))
  }

  /**
   * capitalizeWords: lower-case, split on spaces, capitalise each word, re-join.
   * Only letter case changes, so the length is kept.
   */
  function CapitalizeWords(wordString: string): (r: string)
    ensures |r| == |wordString|
  {
    var words := Split(ToLower(wordString));
    JoinSameLengths(CapitalizeAll(words), words);
    JoinSplit(ToLower(wordString));
    Join(CapitalizeAll(words))
  }

  /** Joining words of the same lengths gives strings of the same length. */
  lemma {:induction false} JoinSameLengths(a: seq<string>, b: seq<string>)
    requires |a| == |b| >= 1
    requires forall i :: 0 <= i < |a| ==> |a[i]| == |b[i]|
    ensures |Join(a)| == |Join(b)|
    decreases |a|
  {
    if |a| > 1 {
      JoinSameLengths(a[1..], b[1..]);
    }
  }

  /** Splitting a space-free prefix glued onto `s` extends the first piece. */
  lemma {:induction false} SplitPrefix(w: string, s: string)
    requires ' ' !in w
    ensures Split(w + s) == [w + Split(s)[0]] + Split(s)[1..]
    decreases |w|
  {
    if w == [] {
      assert w + s == s;
      assert w + Split(s)[0] == Split(s)[0];
    } else {
      assert (w + s)[0] == w[0] && (w + s)[1..] == w[1..] + s;
      SplitPrefix(w[1..], s);
      assert [w[0]] + (w[1..] + Split(s)[0]) == w + Split(s)[0];
    }
  }

  /** split(" ") undoes join(" ") on space-free words. */
  lemma {:induction false} SplitJoin(words: seq<string>)
    requires |words| >= 1
    requires forall i :: 0 <= i < |words| ==> ' ' !in words[i]
    ensures Split(Join(words)) == words
    decreases |words|
  {
    if |words| == 1 {
      SplitPrefix(words[0], "");
      assert words[0] + "" == words[0];
    } else {
      var tail := words[1..];
      SplitJoin(tail);
      assert Split(" " + Join(tail)) == [""] + Split(Join(tail)) by {
        assert (" " + Join(tail))[1..] == Join(tail);
      }
      assert words[0] + " " + Join(tail) == words[0] + (" " + Join(tail));
      SplitPrefix(words[0], " " + Join(tail));
      assert words[0] + "" == words[0];
      assert [words[0]] + tail == words;
    }
  }

  /** join(" ") undoes split(" "). */
  lemma {:induction false} JoinSplit(s: string)
    ensures Join(Split(s)) == s
    decreases |s|
  {
    if s != [] {
      JoinSplit(s[1..]);
      var rest := Split(s[1..]);
      if s[0] == ' ' {
        assert ([""] + rest)[1..] == rest;
        assert s == " " + s[1..];
      } else if |rest| == 1 {
        assert s == [s[0]] + rest[0];
      } else {
        var words := [[s[0]] + rest[0]] + rest[1..];
        assert words[1..] == rest[1..];
        assert Join(rest) == rest[0] + " " + Join(rest[1..]);
        assert s == [s[0]] + s[1..];
      }
    }
  }

  /** Lower-casing keeps spaces where they are, so the piece count is unchanged. */
  lemma {:induction false} SplitToLowerCount(s: string)
    ensures |Split(ToLower(s))| == |Split(s)|
    decreases |s|
  {
    if s != [] {
      assert ToLower(s)[1..] == ToLower(s[1..]);
      SplitToLowerCount(s[1..]);
    }
  }

  /** Lower-casing a capitalised lower-case word gives the word back. */
  lemma CapitalizeWordLower(word: string)
    requires IsLowerCase(word)
    ensures ToLower(CapitalizeWord(word)) == word
  {
    if word != "" {
      assert ToLower(CapitalizeWord(word))[0] == word[0];
    }
  }

  /** Lower-casing distributes over join. */
  lemma {:induction false} ToLowerJoin(words: seq<string>)
    requires |words| >= 1
    ensures ToLower(Join(words)) == Join(seq(|words|, i requires 0 <= i < |words| => ToLower(words[i])))
    decreases |words|
  {
    var lowered := seq(|words|, i requires 0 <= i < |words| => ToLower(words[i]));
    if |words| > 1 {
      ToLowerJoin(words[1..]);
      assert lowered[1..] == seq(|words| - 1, i requires 0 <= i < |words| - 1 => ToLower(words[1..][i]));
      ToLowerConcat(words[0] + " ", Join(words[1..]));
      ToLowerConcat(words[0], " ");
    }
  }

  /**
   * capitalizeWords keeps the space-separated word count, makes each non-empty
   * word start with a non-lower-case character followed by lower case only, and
   * changes nothing but letter case.
   */
  lemma CapitalizeWordsShape(wordString: string)
    ensures |Split(CapitalizeWords(wordString))| == |Split(wordString)|
    ensures forall i :: 0 <= i < |Split(CapitalizeWords(wordString))| ==>
              var w := Split(CapitalizeWords(wordString))[i];
              w != "" ==> !('a' <= w[0] <= 'z') && IsLowerCase(w[1..])
    ensures ToLower(CapitalizeWords(wordString)) == ToLower(wordString)
  {
    var lowered := ToLower(wordString);
    ToLowerIsLowerCase(wordString);
    var words := Split(lowered);
    var capitalized := CapitalizeAll(words);
    forall i | 0 <= i < |capitalized|
      ensures ' ' !in capitalized[i]
    {
      assert forall k :: 0 <= k < |capitalized[i]| ==> capitalized[i][k] != ' ';
    }
    SplitJoin(capitalized);
    SplitToLowerCount(wordString);
    forall i | 0 <= i < |words|
      ensures IsLowerCase(words[i])
    {
      JoinSplit(lowered);
      WordOfLowerCase(lowered, i);
    }
    ToLowerJoin(capitalized);
    forall i | 0 <= i < |words|
      ensures ToLower(capitalized[i]) == words[i]
    {
      CapitalizeWordLower(words[i]);
    }
    assert seq(|capitalized|, i requires 0 <= i < |capitalized| => ToLower(capitalized[i])) == words;
    JoinSplit(lowered);
  }

  /** Every piece of a lower-case string is lower case. */
  lemma {:induction false} WordOfLowerCase(s: string, i: nat)
    requires IsLowerCase(s)
    requires i < |Split(s)|
    ensures IsLowerCase(Split(s)[i])
    decreases |s|
  {
    if s != [] {
      var rest := Split(s[1..]);
      if s[0] == ' ' {
        if i > 0 { WordOfLowerCase(s[1..], i - 1); }
      } else if i == 0 {
        WordOfLowerCase(s[1..], 0);
      } else {
        WordOfLowerCase(s[1..], i);
      }
    }
  }

  // ---------------------------------------------------------------------------
  // validateEmail
  // ---------------------------------------------------------------------------

  const EmailRequired: string := "Email is required"
  const EmailInvalid: string := "Please enter a valid email"

  /**
   * validateEmail: a message for a missing or empty address; otherwise the
   * verdict of the address pattern, which is a parameter here.
   */
  function ValidateEmail(email: Option<string>, matchesPattern: string -> bool): (r: Option<string>)
    ensures r == Some(EmailRequired) <==> email.None? || email.value == ""
    ensures email.Some? && email.value != "" ==>
              r == (if matchesPattern(email.value) then None else Some(EmailInvalid))
  {
    if email.None? || email.value == "" then Some(EmailRequired)
    else if !matchesPattern(email.value) then Some(EmailInvalid)
    else None
  }
}
